=== FILE: README.md ===
# rt-reporter in Dafny

A model of the event reporter of rt-reporter. A subject under test writes
fixed-size binary event frames to a pipe. The reporter reads them in large
chunks, cuts each chunk into packages, and unpacks every package into a
timestamp, a type ordinal and a payload. The payload is rendered the way
Python prints a `bytes` value, cut to a fixed length and stripped. The
reporter then turns each event into a CSV record `ts,<kind>,payload`.
Three generations of the reporter are modelled:

- the **multi-stream demultiplexer** of src/ and gui/, which writes records
  to a registry of log files keyed by stream name (`Demux`);
- the **rt_reporter** single-stream classifier (`RtEvents`). It is used by
  the old publishing channel (`RtChannel`) and by the acquisition loop of
  reporter.py and rt_reporter_sh.py (`RtControl`, `RtShell`). That loop
  runs under SIGINT/SIGTSTP control and has a timeout;
- the **legacy** two-way classifier with one output file and two counters
  (`Legacy`).

Around these sit:

- the shared byte, frame and text layers (`Bytes`, `Frames`, `PyRepr`,
  `Text`, `Csv`);
- the polling loop that observes a stop flag (`Polling`);
- the src command-line front end (`Cli`);
- the path checks of the rt_reporter utilities (`Paths`).

Everything is pure functions over immutable data. A log is the sequence of
records written through its stream name; logs are kept apart by name, not by
the file they are opened on (see "## Left out"). A stop flag is the index of the first poll that sees
it set. A signal is an element of a sequence of arrivals. The clock is the
seconds-since-start each timeout test observes.

Behaviour the model keeps as the source has it:

- rt_reporter ends the report on ordinal 4 and classifies 5, 6 and every other ordinal above 3 as `invalid` (`RtEvents.Classify`).
- src opens a log for ordinal 4 with mode `"w"`, so a log of a name already open is truncated (`Demux.OpenEventReplacesLog`).
- A package shorter than the frame raises `struct.error` and ends the thread (`Demux.ShortPackageFails`); nothing realigns the stream.
- The comment at rt_reporter/src/communication_channel_conf.py:14 mentions 4 bytes of padding and 1008 bytes of data, but `QI1012s` has no padding: 8 + 4 + 1012 bytes.

Module layout (one file each):

- basics.dfy: `Basics`, with Option and Min;
- bytes.dfy: `Bytes`, with little-endian fields and two's complement;
- pyrepr.dfy: `PyRepr`, the bytes repr;
- text.dfy: `Text`, with strip, rstrip, numerals and split;
- csv.dfy: `Csv`, the records;
- frames.dfy: `Frames`, with struct layouts, package splitting, channel confs, the payload text and event decoding;
- polling.dfy: `Polling`, with the stop-flag schedule, the generic fold and the loop methods;
- demux.dfy: `Demux`;
- rt_events.dfy: `RtEvents`;
- rt_channel.dfy: `RtChannel`;
- rt_control.dfy: `RtControl`;
- rt_shell.dfy: `RtShell`;
- legacy.dfy: `Legacy`;
- cli.dfy: `Cli`;
- paths.dfy: `Paths`.

## Model

| member | source | states |
|---|---|---|
| Bytes.LittleEndianOfEncoding | src/reporter_communication_channel.py:63-65 | Encoding a field value in k little-endian bytes and reading it back gives the value |
| Bytes.EncodingOfLittleEndian | src/reporter_communication_channel.py:63-65 | Reading k bytes as a little-endian value and encoding it again gives the same bytes |
| Bytes.ToSigned | src/reporter_communication_channel.py:63-65 | A `q`/`i` field read as two's complement lies in [-2^(8k-1), 2^(8k-1)) and is negative exactly when the top bit is set |
| Bytes.SignedRoundTrip | src/reporter_communication_channel.py:63-65 | Two's complement encoding then decoding is the identity on the signed range |
| Bytes.UnsignedRoundTrip | src/reporter_communication_channel.py:63-65 | Two's complement decoding then encoding is the identity on raw field values |
| Frames.Unpack | src/reporter_communication_channel.py:63-67 | `struct.unpack` succeeds exactly on packages of the frame size (1040 for `qi1028s`, 1024 for `QI1012s`); the data field is everything after byte 12 |
| Frames.ReadOfWriteField | src/reporter_communication_channel.py:63-67 | A field value that fits its width is read back unchanged after it is written |
| Frames.WriteOfReadField | src/reporter_communication_channel.py:63-67 | Any field bytes are written back unchanged after they are read |
| Frames.UnpackOfPack | src/reporter_communication_channel.py:63-67 | Unpacking a packed frame gives the frame back |
| Frames.PackOfUnpack | src/reporter_communication_channel.py:63-67 | Packing an unpacked package of the right size gives the package back, and its fields fit their widths |
| Frames.PackageCountIsCeiling | src/reporter_communication_channel.py:55-58 | The number of packages cut from a buffer is the ceiling of its length over the package size |
| Frames.PackagesAreLossless | src/reporter_communication_channel.py:55-58 | The packages concatenate back to the buffer; all but the last have exactly `max_pkg_size` bytes, and the last is non-empty and at most that |
| Frames.MakeConf | src/communication_channel_conf.py:12-15 | `capacity` is `int(buffer_size / max_pkg_size)`, the largest count of packages that fits the buffer |
| Frames.SrcConfValues | src/communication_channel_conf.py:12-15 | The src channel is 65536 / 1040 / 63; a package is one `qi1028s` frame; a full read is 65520 bytes, 16 short of the buffer |
| Frames.LegacyConfValues | src/communitationChannelReporter.py:88-93 | The legacy channel has the same sizes as src, and a package is one `qi1028s` frame |
| Frames.RtConfValues | rt_reporter/src/communication_channel_conf.py:11-16 | The rt_reporter channel is 65536 / 1024 / 64; a package is one `QI1012s` frame; a full read fills the buffer exactly |
| Frames.FullReadSplitsWhole | src/reporter_communication_channel.py:51-58 | A read of `capacity * max_pkg_size` bytes splits into exactly `capacity` whole packages |
| Frames.PayloadTextShape | src/reporter_communication_channel.py:68-69 | `str(data)[2:][:cut].strip()` is at most `cut` characters, has no whitespace at either end and holds no line break |
| Frames.PayloadOfPadded | src/reporter_communication_channel.py:68-69 | A payload of plain printable bytes padded with spaces comes back as exactly its text |
| Frames.DecodeEvent | src/reporter_communication_channel.py:63-69 | A package decodes exactly when it has the frame size; its timestamp and ordinal fit their field widths, and its payload is the stripped payload text of the data field |
| PyRepr.QuoteFor | src/reporter_communication_channel.py:68 | The repr uses double quotes exactly when the bytes contain a single quote and no double quote |
| PyRepr.EscapeByte | src/reporter_communication_channel.py:68 | A byte stays one character exactly when it is printable ASCII other than the quote and the backslash; otherwise it becomes an escape of 2 to 4 printable characters |
| PyRepr.RenderIsPrintable | src/reporter_communication_channel.py:68 | `str(bytes)[2:]` is printable ASCII and ends with the closing quote |
| PyRepr.RenderOfPlain | src/reporter_communication_channel.py:68 | Plain printable bytes without quotes or backslashes render as themselves followed by `'` |
| Text.Take | src/reporter_communication_channel.py:69 | `s[:n]` is the prefix of length `min(n, len(s))` |
| Text.StripIsCore | src/reporter_communication_channel.py:69 | `strip()` returns the slice that starts and ends with non-whitespace and has only whitespace outside it |
| Text.CoreIsUnique | src/reporter_communication_channel.py:69 | There is only one such slice, so `strip()` is determined by it |
| Text.StripIdempotent | src/reporter_communication_channel.py:69 | Stripping twice is stripping once |
| Text.StripOfPadded | src/reporter_communication_channel.py:69 | A stripped text padded with whitespace strips back to itself |
| Text.RStrip | rt_reporter/communication_channel.py:87 | `rstrip(chars)` keeps a prefix, removes only characters of the set, and leaves a last character outside the set |
| Text.ParseIntOfIntToString | src/reporter_communication_channel.py:73-79 | `str(timestamp)` reads back as the timestamp, negative ones included |
| Text.SplitFirst | src/reporter_communication_channel.py:119 | `split(",", 1)` gives one part exactly when there is no comma; otherwise the parts joined by the comma are the string, and the first part has no comma |
| Text.SplitFirstOfJoin | src/reporter_communication_channel.py:119 | Splitting `a + "," + b` with a comma-free `a` gives `[a, b]` |
| Text.SplitLast | rt-reporter-sh.py:54 | `rsplit("/", 1)` gives one part exactly when there is no slash; otherwise the parts joined by the slash are the string, and the last part has no slash |
| Text.SplitLastOfJoin | rt-reporter-sh.py:54 | Splitting `a + "/" + b` with a slash-free `b` gives `[a, b]` |
| Csv.ParseLineOfLineText | src/reporter_communication_channel.py:73-79 | The timestamp and the rest of a record read back from its line, even when the rest has commas |
| Csv.LineTextIsInjective | src/reporter_communication_channel.py:73-79 | Different records give different lines |
| Polling.ScheduledIsPrefix | src/reporter_communication_channel.py:47-61 | The packages processed before the stop flag is seen are a prefix of all packages read, in arrival order |
| Polling.ScheduledIsMonotone | src/reporter_communication_channel.py:47-61 | A later stop processes an extension of what an earlier stop processes |
| Polling.ScheduledLateStopTakesAll | src/reporter_communication_channel.py:47-61 | If the flag is not seen by the last poll, every package read is processed |
| Polling.ScheduledEarlyStopTakesNone | src/reporter_communication_channel.py:47-50 | A flag seen at the first poll processes nothing |
| Polling.ReadLoop | src/reporter_communication_channel.py:59-61 | The inner loop handles the first `min(len(pkgs), budget)` packages in order, stopping at the first exception |
| Polling.PollingLoop | src/reporter_communication_channel.py:47-61 | The whole loop (poll, read, split, poll before each package) handles exactly the packages the stop schedule lets through |
| Frames.DecodeSigned | src/reporter_communication_channel.py:63-69 | A `qi1028s` package, as the src, gui and legacy readers unpack it, decodes exactly when it is 1040 bytes |
| Demux.GetCount | src/reporter_communication_channel.py:33-39 | The counters are reported in the order timed, state, process, component |
| Demux.MainEventWritesOneLine | src/reporter_communication_channel.py:70-110 | Ordinals 0 to 3 write one `ts,<kind>,payload` line to "main", change no other log, and add one to their own counter |
| Demux.InvalidEventWritesOneLine | src/reporter_communication_channel.py:123-132 | Any ordinal outside 0..5, negatives included, writes `ts,invalid,payload` to "main" and moves no counter |
| Demux.OpenEventReplacesLog | src/reporter_communication_channel.py:111-116 | Ordinal 4 maps the payload name to a fresh, empty log at `files_path/<name>_log.csv`, replacing any log of that name; nothing else changes |
| Demux.SubjectComponentSharesMainPath | src/reporter_communication_channel.py:113-116 | A component named after the subject's base name is opened on the same path as the "main" log, `<files_path>/<base>_log.csv`, when the subject was started from the files path |
| Demux.RouteEventWritesToNamedLog | src/reporter_communication_channel.py:117-122 | Ordinal 5 with payload `name,rest` writes `ts,rest` to the log of `name` only; an unopened name raises `KeyError`; the component counter moves first in both cases |
| Demux.RouteEventWithoutCommaFails | src/reporter_communication_channel.py:117-122 | Ordinal 5 without a comma raises `IndexError` after the component counter has moved |
| Demux.ShortPackageFails | src/reporter_communication_channel.py:63-65 | A package is rejected with `struct.error`, leaving the state unchanged, exactly when it is not 1040 bytes |
| Demux.EventNeverFailsToUnpack | src/reporter_communication_channel.py:63-132 | Once a package is unpacked, `struct.error` can no longer happen |
| Demux.ProcessIsProcessEvents | src/reporter_communication_channel.py:59-69 | Unpacking every package first and then acting on the events is the same as doing both package by package |
| Demux.ProcessStaysReady | src/reporter_communication_channel.py:46-132 | "main" always exists and every log stays open; logs are never removed; `KeyError("main")` and writes to closed files never happen |
| Demux.ProcessCountsOrdinals | src/reporter_communication_channel.py:70-122 | A run without exception unpacked every package, and its counters equal the tally of ordinals 0, 1, 2 and 3+5 |
| Demux.ProcessAppendsInOrder | src/reporter_communication_channel.py:59-132 | Unless a package reopens a stream, the stream ends with its old lines followed by exactly the lines routed to it, in package order |
| Demux.CloseAll | src/reporter_communication_channel.py:138-139 | Closing keeps the same logs with the same paths and contents, all closed |
| Demux.RunClosesEverything | src/reporter_communication_channel.py:41-139 | A completed run ends with "main" present and every log closed |
| Demux.GuiStop | gui/reporter_communication_channel.py:48-60 | `stop` sets the flag and closes every log, keeping the counters, the log names and their contents |
| Demux.GuiWriteAfterStopFails | gui/reporter_communication_channel.py:48-60 | A main-stream event handled after `stop` fails by writing to a closed file |
| Demux.GuiProcessIncoming | gui/reporter_communication_channel.py:62-109 | The gui thread handles exactly what the src thread handles for the same reads and stop point |
| RtEvents.Decode | rt_reporter/communication_channel.py:66-70 | An rt package unpacks exactly when it is 1024 bytes, and its timestamp and ordinal are unsigned |
| RtEvents.DecodedPayloadHasNoLineBreak | rt_reporter/communication_channel.py:69-70 | The rt payload text (cut to 1010 characters) holds no line break |
| RtEvents.Classify | rt_reporter/communication_channel.py:71-84 | The classifier gives nothing exactly for ordinal 4, and otherwise a record with the event's timestamp |
| RtEvents.ClassifyAgainstDemux | rt_reporter/communication_channel.py:71-84 | Ordinals other than 4 and 5 give the very record src writes to "main"; 5 is `invalid`; 4 ends the report where src opens a log |
| RtChannel.LoggedFormOfRecord | rt_reporter/communication_channel.py:85-88 | `event.rstrip('\n\r')` of a record that does not end in a line break is the record |
| RtChannel.ClassifiedLogsWhatItSends | rt_reporter/communication_channel.py:73-88 | For an event without line breaks, the logged text is the published string minus its final newline |
| RtChannel.PublicationsLogWhatTheySend | rt_reporter/communication_channel.py:66-88 | Every publication a package causes logs exactly its body minus the final newline |
| RtChannel.ExitIndex | rt_reporter/communication_channel.py:52-56 | The first pass whose head test exits: no earlier pass exits, and that pass does |
| RtChannel.ZeroTimeoutNeverExpires | rt_reporter/communication_channel.py:54-55 | With timeout 0 only the stop flag ends the loop |
| RtChannel.RunPublishesInOrder | rt_reporter/communication_channel.py:52-89 | Unless a package raises, what is published is `RecordsOf` of every package read before the exiting pass, in order |
| RtChannel.RunExitsWhenTold | rt_reporter/communication_channel.py:52-56 | A run that has not raised has left the loop exactly when some pass's head test said so |
| RtChannel.RunLogsWhatItSends | rt_reporter/communication_channel.py:52-89 | Throughout a run, every logged string is the published string minus its newline |
| RtControl.Deliver | rt_reporter/reporter.py:35-39 | SIGINT sets `stop` and leaves `pause`; SIGTSTP toggles `pause` and leaves `stop` |
| RtControl.SigtstpTwiceIsIdentity | rt_reporter/reporter.py:38-39 | Two SIGTSTP signals leave the flags as they were |
| RtControl.DeliverAllFlags | rt_reporter/reporter.py:35-39 | After any signals, `stop` is set exactly when it was already set or a SIGINT came, and `pause` has flipped once per SIGTSTP |
| RtControl.WaitFor | rt_reporter/reporter.py:88-89 | The pause loop tests the flags before its first one-second sleep and after each; it ends at the first test that finds `pause` clear or `stop` set, and not before; if no test does, it is still sleeping |
| RtControl.TestedIsArrivals | rt_reporter/reporter.py:88-89 | A test after j sleeps sees the flags left by every signal of the first j seconds, and nothing of the seconds after |
| RtControl.HeadOf | rt_reporter/reporter.py:81-94 | A `stop` flag set before the head test is always turned into the local `stop`; the local `stop` is only ever set after a SIGINT; a pause that never ends saw no SIGINT; the flags carried to the next pass are those left by every signal of the pass |
| RtControl.PausedHead | rt_reporter/reporter.py:86-92 | A pass that finds `pause` set waits; a `stop` already set ends the wait at once and becomes the local `stop`, and otherwise the local `stop` is only set after a SIGINT during the wait; a wait that does not end saw no SIGINT and no earlier `stop`; the flags carried on are those left by every signal of the wait |
| RtControl.TogglePairWithinOneSleepIsMissed | rt_reporter/reporter.py:86-89 | Two SIGTSTPs within one second of a pause are never seen: the pause goes on and the pass makes no read |
| RtControl.SigintWithResumeStops | rt_reporter/reporter.py:86-92 | A SIGINT in the same second as the resuming SIGTSTP is seen after the wait, so that pass stops |
| RtControl.StepsPublishRecords | rt_reporter/reporter.py:104-149 | A package that goes through publishes its record, if any; `number_of_events` moves only with a publication |
| RtControl.ReasonOf | rt_reporter/reporter.py:168-173 | COMPLETED exactly on timeout; STOPPED exactly on SIGINT without timeout; "unknown" exactly for neither |
| RtControl.Heads | rt_reporter/reporter.py:80-97 | The passes whose reads are made: every pass before the last neither stops nor times out |
| RtControl.RunPublishesInOrder | rt_reporter/reporter.py:80-149 | Unless a package raises, what is published is the records of every read made, in order, the read of the pass that decided to leave included |
| RtControl.RunCountsEvents | rt_reporter/reporter.py:125-149 | `number_of_events` always equals the number of records published, so the end-of-report event (ordinal 4) is never counted |
| RtControl.RunFinishesOnLastHead | rt_reporter/reporter.py:168-173 | A finished loop left because its last read pass stopped or timed out; it logs that pass's reason with the timeout first, and never "unknown" |
| RtControl.StoppedOnlyAfterSigint | rt_reporter/reporter.py:170-171 | "STOPPED, SIGINT received" is only logged when a SIGINT did arrive |
| RtControl.ZeroTimeoutOnlyStops | rt_reporter/reporter.py:96-97 | Without a timeout the loop can only finish by SIGINT |
| RtControl.ReporterLogsEveryRecord | rt_reporter/reporter.py:71-173 | The final log line of the reporter thread counts every record of every read made and gives a known reason |
| RtShell.LevelOf | rt_reporter/rt_reporter_sh.py:74-86 | Any name other than the four non-default level names gives INFO |
| RtShell.LevelNamesRoundTrip | rt_reporter/rt_reporter_sh.py:74-86 | Each level is chosen by its own `--log_level` name; each non-default level by that name alone |
| RtShell.DestinationOf | rt_reporter/rt_reporter_sh.py:88-95 | The log goes to FILE exactly when a log file is given and it checks out; otherwise to CONSOLE |
| RtShell.NormaliseTimeout | rt_reporter/rt_reporter_sh.py:120 | A non-negative timeout is kept; a negative one never expires |
| RtShell.RefusalCode | rt_reporter/rt_reporter_sh.py:185-204 | A CSV or type error exits -3; a publication error exits -2 |
| RtShell.Main | rt_reporter/rt_reporter_sh.py:110-126 | An invalid SUT binary exits -1 before any other exit and before the channel is created; an invalid RabbitMQ configuration file exits -1; -1 happens for no other reason |
| RtShell.NegativeTimeoutIsNone | rt_reporter/rt_reporter_sh.py:120 | A negative `--timeout` runs exactly as `--timeout=0` |
| RtShell.ReportedRunIsComplete | rt_reporter/rt_reporter_sh.py:140-235 | Exit 0 follows valid inputs and a sent poison pill, reports the number of every record of every read made, never gives "unknown", and without a timeout gives SIGINT |
| Legacy.GetCount | src/communitationChannelReporter.py:37-38 | The counters are reported as workflow, then hardware |
| Legacy.KindOf | src/communitationChannelReporter.py:71-76 | An event is a hardware event exactly for ordinal 0 and a workflow event otherwise |
| Legacy.ProcessIncoming | src/communitationChannelReporter.py:56-80 | The legacy thread handles exactly the packages the stop schedule lets through, up to the first `struct.error` |
| Legacy.LineOfIsHardware | src/communitationChannelReporter.py:71-78 | A written line starts with `hardware_event,` exactly when its event has ordinal 0 |
| Legacy.StepTallies | src/communitationChannelReporter.py:68-79 | One package keeps each counter equal to the number of lines of its kind in the file |
| Legacy.ProcessTallies | src/communitationChannelReporter.py:56-80 | However the loop ends, hardware counts the hardware lines, workflow the others, and together they count every line; `get_count` reports the non-hardware lines, then the hardware lines |
| Legacy.ProcessWritesInOrder | src/communitationChannelReporter.py:56-80 | A loop without exception writes one line per package handled, in package order |
| Cli.Main | rt-reporter-sh.py:44-56 | A wrong argument count exits -1 whatever the file; a missing file exits -2; a path without `/` raises `IndexError`; a start uses the text before the last `/` as the directory and the argument itself as the process name |
| Cli.StartSplitsAtLastSlash | rt-reporter-sh.py:54-56 | For `dir/base` with a slash-free base, the channel starts with `dir` and the whole path |
| Cli.OnPress | rt-reporter-sh.py:17-25 | A key press sets the flag exactly when it is the printable key `s` |
| Cli.AfterKeysSetsOnS | rt-reporter-sh.py:17-25 | After any keys, the flag is set exactly when it already was or `s` was among them |
| Cli.FlagSeen | rt-reporter-sh.py:28-41 | Because the flag is cleared after the listener starts, only keys pressed after the clear can stop the channel |
| Paths.ValidateInputPath | rt_reporter/utility.py:53-67 | An input path is valid exactly when it resolves, exists, is a file and is readable; a valid path says "Path is valid." |
| Paths.ValidateInputPathIsFirstFailure | rt_reporter/utility.py:53-67 | The answer is the message of the first failing check in the order resolve, exists, is_file, readable |
| Paths.ValidateOutputPath | rt_reporter/utility.py:70-90 | A resolve failure gives `Invalid path: <e>`; an existing path is valid exactly when writable; a new path is valid exactly when its parent exists and is writable; a missing parent is reported by name |
| Paths.ValidateOutputPathIsFirstFailure | rt_reporter/utility.py:70-90 | On a resolvable path the answer is the message of the first failing check of its branch |

## Left out

- Processes, pipes, threads, sleeping, the wx status windows and the keyboard listener are not modelled. Each read is given as the bytes it returns, the stop flag as the first poll that sees it set, signals as arrivals, and the clock as the seconds each timeout test observes.
- Byte order: `qi1028s` and `QI1012s` use the host's native order. The model assumes little-endian.
- PyRepr.Render is a concrete model of CPython's `bytes.__repr__`, written out rather than left abstract: it uses CPython's quote choice and its `\\`, `\t`, `\n`, `\r` and `\xhh` escapes.
- Demux.Apply: logs are identified by stream name, not by path. Two stream names whose paths coincide are not modelled as one file. Examples are a component named after the subject's base name, which rt-reporter-sh.py:54-56 starts from the files path (`Demux.SubjectComponentSharesMainPath`), and names such as `./x` and `x`. In the source the second `open(..., "w")` truncates the shared file, and two handles then write to it at separate offsets; the model keeps a separate log for each name.
- Demux.OpenEventReplacesLog: its "nothing else changes" holds for the registry, which is keyed by name. When the new log's path equals that of another open log, the source also truncates that other log's file, and the model does not say so (see the `Demux.Apply` line above).
- Demux.Apply: `open(path, "w")` is assumed never to fail. A bad component name or a missing directory would raise `OSError` in the source, and the model has no such fault.
- Demux.Apply: replacing the log of a name that is already open keeps only the new, empty log. In the source the replaced file object keeps its own buffer and file offset. When it is garbage-collected, that buffer is flushed into the truncated file. What ends up on disk in that case is not modelled.
- Demux.Run: the stop point `stopAt` is a natural number. So `Run` describes the state after the reads it is given. After the subject exits, the src loop reads empty chunks forever until `s` is pressed. The model represents that endless run only by its finite prefixes, because a later stop never changes what an earlier prefix processed (`Polling.ScheduledIsMonotone`).
- Demux.Initial: opening "main" at the start of `run` is assumed to succeed.
- The file-size part of the legacy `get_count` (`tell()/1048576`, a float) is left out. So are the legacy and gui `stop` side effects on the subject process, the pipe and the legacy output file, which `stop` closes after a one-second `join`.
- RtChannel: the RabbitMQ connection is not modelled. Each publication is assumed to succeed, because that loop catches no error.
- RtControl: the codec (`EventCSVCoDec`, `EventDictCoDec`), `json.dumps` and the RabbitMQ publication are modelled only through a `deliver` parameter that says whether a record goes through. The poison pill's success is a boolean parameter.
- RtShell: argparse is not modelled, including its own exit on malformed arguments and its `choices` list. Because of that list, the default branch of the log-level match cannot be reached from the command line. The file checks `is_valid_file_with_extension` and `is_valid_file_with_extension_nex` are not part of this model, and their answers are inputs. Setting up logging and building the RabbitMQ connections are not modelled; an exception while building the connections is not modelled either.
- reporter.py reads `config.timeout` without normalising it. A negative value set by another caller would make the first pass time out. Only rt_reporter_sh.py normalises it, and `RtShell.NormaliseTimeout` models that.
- Legacy.ProcessTallies: the counters are shown to match the file for every run the model covers. A write that races past the flag check after `stop` has closed the output file raises `ValueError` after its counter moved, which leaves the counters one ahead of the lines; that race is not modelled.
- Cli: the file opened to test for existence is never closed; the model does not track it.
- Paths: the file-system answers (`resolve`, `exists`, `is_file`, `is_dir`, `os.access`) and the text of the exception `resolve` raises are inputs.
- RtControl.HeadOf, RtControl.PausedHead: after the pause loop the source reads `stop` once more; the model takes that read at the instant of the test that ended the wait, so a SIGINT between the two is left for the next pass.

=== FILE: basics.dfy ===
/**
 Small generic helpers shared by the other modules.
 */
module Basics {

  /** A value that may be missing: Python's `None` or a value. */
  datatype Option<T> = None | Some(value: T)

  function Min(a: int, b: int): (m: int)
    ensures m <= a && m <= b && (m == a || m == b)
  {
    if a <= b then a else b
  }
}

=== FILE: bytes.dfy ===
/**
 Byte sequences and the fixed-width integer fields of a frame.

 The frames are unpacked with Python's `struct` module in native byte order.
 Byte order is taken to be little-endian: an `n`-byte field is the
 little-endian value of its bytes; signed fields (`q`, `i`) are read in two's
 complement, unsigned fields (`Q`, `I`) as they are.
 */
module Bytes {

  type byte = b: int | 0 <= b < 256

  /** 256 to the power k: the number of distinct k-byte values. */
  function Pow256(k: nat): (p: nat)
    ensures p >= 1
  {
    if k == 0 then 1 else 256 * Pow256(k - 1)
  }

  /** The unsigned value of a little-endian byte string. */
  function LittleEndian(s: seq<byte>): (v: nat)
    ensures v < Pow256(|s|)
  {
    if |s| == 0 then 0 else s[0] + 256 * LittleEndian(s[1..])
  }

  /** The k-byte little-endian encoding of v. */
  function ToLittleEndian(v: nat, k: nat): (s: seq<byte>)
    requires v < Pow256(k)
    ensures |s| == k
  {
    if k == 0 then [] else [v % 256] + ToLittleEndian(v / 256, k - 1)
  }

  lemma {:induction false} LittleEndianOfEncoding(v: nat, k: nat)
    requires v < Pow256(k)
    ensures LittleEndian(ToLittleEndian(v, k)) == v
  {
    if k > 0 {
      var s := ToLittleEndian(v, k);
      assert s[1..] == ToLittleEndian(v / 256, k - 1);
      LittleEndianOfEncoding(v / 256, k - 1);
    }
  }

  lemma {:induction false} EncodingOfLittleEndian(s: seq<byte>)
    ensures ToLittleEndian(LittleEndian(s), |s|) == s
  {
    if |s| > 0 {
      DigitOfLittleEndian(s[0], LittleEndian(s[1..]));
      EncodingOfLittleEndian(s[1..]);
    }
  }

  lemma DigitOfLittleEndian(d: byte, rest: nat)
    ensures (d + 256 * rest) % 256 == d && (d + 256 * rest) / 256 == rest
  {
  }

  /** Half the k-byte range: the bound of the signed k-byte values. */
  function HalfRange(k: nat): int
  {
    Pow256(k) / 2
  }

  /** Two's-complement reading of an unsigned k-byte value. */
  function ToSigned(u: nat, k: nat): (i: int)
    requires 0 < k && u < Pow256(k)
    ensures -HalfRange(k) <= i < HalfRange(k)
    ensures i >= 0 <==> u < HalfRange(k)
  {
    Pow256Even(k);
    if u < HalfRange(k) then u else u - Pow256(k)
  }

  /** Two's-complement encoding of a signed value as an unsigned k-byte value. */
  function FromSigned(i: int, k: nat): (u: nat)
    requires 0 < k && -HalfRange(k) <= i < HalfRange(k)
    ensures u < Pow256(k)
  {
    Pow256Even(k);
    if i >= 0 then i else i + Pow256(k)
  }

  lemma Pow256Even(k: nat)
    requires k > 0
    ensures Pow256(k) % 2 == 0 && Pow256(k) >= 256
  {
  }

  lemma SignedRoundTrip(i: int, k: nat)
    requires 0 < k && -HalfRange(k) <= i < HalfRange(k)
    ensures ToSigned(FromSigned(i, k), k) == i
  {
  }

  lemma UnsignedRoundTrip(u: nat, k: nat)
    requires 0 < k && u < Pow256(k)
    ensures FromSigned(ToSigned(u, k), k) == u
  {
  }
}

=== FILE: cli.dfy ===
/**
 The command-line front end rt-reporter-sh.py of the src generation: its
 argument checks, the split of the subject's path into the directory for
 the named logs and the process name, and the key listener that sets the
 stop flag.

 Opening the subject's file is given as its outcome. The listener thread,
 the acquisition thread and the subject process itself are not part of this
 model; the src thread they start is `Demux.Run`.
 */
module Cli {
  import opened Basics
  import opened Text
  import opened Polling

  /** What `open(sys.argv[1], "r")` does: it opens the file, raises
      `FileNotFoundError`, or raises another `OSError` (a directory, no read
      permission). */
  datatype FileStatus = Readable | Missing | Unopenable

  /** The exceptions `main` does not catch. */
  datatype CliError = OpenError | IndexError

  /** How `main` goes: it exits with a code, raises, or starts the src
      channel with `files_path` and `process_name`. */
  datatype Launch = Exit(code: int) | Raised(error: CliError) | Start(filesPath: string, processName: string)

  /** `main`: argv holds the program name and the arguments; status is what
      opening the first argument does. */
  function Main(argv: seq<string>, status: FileStatus): (r: Launch)
    ensures |argv| != 2 ==> r == Exit(-1)
    ensures |argv| == 2 && status == Missing ==> r == Exit(-2)
    ensures |argv| == 2 && status == Unopenable ==> r == Raised(OpenError)
    ensures |argv| == 2 && status == Readable ==> (r.Raised? <==> '/' !in argv[1])
    ensures r.Start? ==> |argv| == 2 && status == Readable && r.processName == argv[1]
    ensures r.Start? ==> IsPrefix(r.filesPath + "/", argv[1]) && '/' !in argv[1][|r.filesPath| + 1..]
  {
    if |argv| != 2 then Exit(-1)
    else
      match status
      case Missing => Exit(-2)
      case Unopenable => Raised(OpenError)
      case Readable =>
        var parts := SplitLast(argv[1], '/');
        if |parts| < 2 then Raised(IndexError)
        else Start(parts[0], parts[0] + "/" + parts[1])
  }

  /** A path with a slash starts the channel with everything before its last
      slash as the directory, and the path itself as the process name. */
  lemma StartSplitsAtLastSlash(argv: seq<string>, dir: string, base: string)
    requires |argv| == 2 && argv[1] == dir + "/" + base && '/' !in base
    ensures Main(argv, Readable) == Start(dir, argv[1])
  {
    SplitLastOfJoin(dir, '/', base);
    assert dir + "/" + base == dir + ['/'] + base;
  }

  // ---------------------------------------------------------------------
  // The key listener.

  /** A key as pynput reports it: a key code with its character, if any, or
      a special key, which has no `char` attribute. */
  datatype Key = KeyCode(ch: Option<char>) | Special

  /** `on_press`: only the printable key 's' sets the flag; a special key
      raises `AttributeError`, which is swallowed. */
  function OnPress(flag: bool, k: Key): (r: bool)
    ensures r <==> flag || k == KeyCode(Some('s'))
  {
    match k
    case KeyCode(ch) => if ch == Some('s') then true else flag
    case Special => flag
  }

  /** The flag after the keys pressed, in order. */
  function AfterKeys(flag: bool, keys: seq<Key>): bool
    decreases |keys|
  {
    if |keys| == 0 then flag else AfterKeys(OnPress(flag, keys[0]), keys[1..])
  }

  /** The flag is set exactly when it was already set or 's' was pressed. */
  lemma {:induction false} AfterKeysSetsOnS(flag: bool, keys: seq<Key>)
    ensures AfterKeys(flag, keys) <==> flag || KeyCode(Some('s')) in keys
    decreases |keys|
  {
    if |keys| > 0 {
      AfterKeysSetsOnS(OnPress(flag, keys[0]), keys[1..]);
      assert keys == [keys[0]] + keys[1..];
    }
  }

  /** `_run_acquisition` starts the listener and only then clears the flag:
      the flag the channel sees depends on the keys pressed after the clear
      alone. */
  function FlagSeen(early: seq<Key>, late: seq<Key>): (r: bool)
    ensures r <==> KeyCode(Some('s')) in late
  {
    // `stop_event.clear()` discards whatever the early keys set.
    AfterKeysSetsOnS(false, late);
    AfterKeys(false, late)
  }
}

=== FILE: csv.dfy ===
/**
 The lines the reporters write: every line of every log, and every event
 string the rt_reporter classifier publishes, is a decimal timestamp, a
 comma, and the rest of the record.
 */
module Csv {
  import opened Basics
  import opened Text

  /** One record: its timestamp and the text after the first comma. */
  datatype Line = Line(timestamp: int, text: string)

  /** The kind names of ordinals 0 to 3. */
  function KindName(ordinal: int): string
    requires 0 <= ordinal <= 3
  {
    match ordinal
    case 0 => "timed_event"
    case 1 => "state_event"
    case 2 => "process_event"
    case 3 => "component_event"
  }

  /** `str(timestamp) + "," + kind + "," + payload`. */
  function CsvLine(timestamp: int, kind: string, payload: string): Line
  {
    Line(timestamp, kind + "," + payload)
  }

  /** `str(timestamp) + "," + text`. */
  function LineText(l: Line): (s: string)
    ensures |s| > |l.text|
    ensures s[|s| - |l.text|..] == l.text
  {
    IntToString(l.timestamp) + "," + l.text
  }

  /** The record read back from a line: the numeral before the first comma and
      everything after it. */
  function ParseLine(s: string): (r: Option<Line>)
  {
    var parts := SplitFirst(s, ',');
    if |parts| < 2 then None
    else match ParseInt(parts[0])
      case None => None
      case Some(ts) => Some(Line(ts, parts[1]))
  }

  /** The timestamp and the rest of a record can always be read back from its
      line, even when the rest holds commas of its own. */
  lemma ParseLineOfLineText(l: Line)
    ensures ParseLine(LineText(l)) == Some(l)
  {
    SplitFirstOfJoin(IntToString(l.timestamp), ',', l.text);
    assert LineText(l) == IntToString(l.timestamp) + [','] + l.text;
    ParseIntOfIntToString(l.timestamp);
  }

  /** Different records give different lines. */
  lemma LineTextIsInjective(a: Line, b: Line)
    requires LineText(a) == LineText(b)
    ensures a == b
  {
    ParseLineOfLineText(a);
    ParseLineOfLineText(b);
  }
}

=== FILE: demux.dfy ===
/**
 The multi-stream demultiplexer of src/reporter_communication_channel.py and
 gui/reporter_communication_channel.py.

 Each `qi1028s` package becomes one action on a registry of output logs keyed
 by stream name: ordinals 0 to 3 write `ts,<kind>,payload` to "main", 4 opens
 (or replaces) the log of the component the payload names, 5 writes
 `ts,<rest>` to the log named by the payload's first comma field, and any
 other ordinal writes `ts,invalid,payload` to "main". Four counters are kept
 along the way. A file is modelled by its path, the lines written to it (each
 followed by a newline on disk) and whether it is still open.
 */
module Demux {
  import opened Basics
  import opened Bytes
  import opened Text
  import opened Frames
  import opened Polling
  import opened Csv

  /** One output file: where it was opened, the lines written to it (each
      rendered by `LineText` and followed by a newline), whether it is open. */
  datatype Log = Log(path: string, lines: seq<Line>, isOpen: bool)

  type Registry = map<string, Log>

  const MainStream: string := "main"

  /** `get_count` order: timed, state, process, component. */
  datatype Counts = Counts(timed: nat, state: nat, process: nat, component: nat)

  const NoCounts := Counts(0, 0, 0, 0)

  /** The exceptions that end the processing thread. */
  datatype Fault =
    | StructError          // `struct.unpack` on a package of the wrong size
    | IndexError           // an ordinal-5 payload without a comma
    | KeyError(name: string)      // an ordinal-5 payload naming a stream never opened
    | ClosedFile(name: string)    // a write to a log `stop` already closed

  /** What one frame asks of the registry. */
  datatype Action = Append(stream: string, line: Line) | Open(name: string) | Raise(fault: Fault)

  /** Where an ordinal-4 frame opens the log of a component. */
  function LogPath(filesPath: string, name: string): string
  {
    filesPath + "/" + name + "_log.csv"
  }

  /** The seven-way match on the type ordinal. */
  function Classify(ev: Event): Action
  {
    if 0 <= ev.ordinal <= 3 then Append(MainStream, CsvLine(ev.timestamp, KindName(ev.ordinal), ev.payload))
    else if ev.ordinal == 4 then Open(ev.payload)
    else if ev.ordinal == 5 then
      var parts := SplitFirst(ev.payload, ',');
      if |parts| < 2 then Raise(IndexError)
      else Append(parts[0], Line(ev.timestamp, parts[1]))
    else Append(MainStream, CsvLine(ev.timestamp, "invalid", ev.payload))
  }

  /** The counter an ordinal bumps: 3 and 5 share the component counter; 4 and
      the unrecognised ordinals bump none. */
  function Count(c: Counts, ordinal: int): Counts
  {
    if ordinal == 0 then c.(timed := c.timed + 1)
    else if ordinal == 1 then c.(state := c.state + 1)
    else if ordinal == 2 then c.(process := c.process + 1)
    else if ordinal == 3 || ordinal == 5 then c.(component := c.component + 1)
    else c
  }

  /** `get_count`. */
  function GetCount(c: Counts): (r: seq<nat>)
    ensures |r| == 4 && r[0] == c.timed && r[1] == c.state && r[2] == c.process && r[3] == c.component
  {
    [c.timed, c.state, c.process, c.component]
  }

  datatype Applied = Applied(logs: Registry) | Failed(fault: Fault)

  /** Carries out an action on the registry. */
  function Apply(logs: Registry, filesPath: string, a: Action): Applied
  {
    match a
    case Append(name, line) =>
      if name !in logs then Failed(KeyError(name))
      else if !logs[name].isOpen then Failed(ClosedFile(name))
      else Applied(logs[name := logs[name].(lines := logs[name].lines + [line])])
    case Open(name) => Applied(logs[name := Log(LogPath(filesPath, name), [], true)])
    case Raise(f) => Failed(f)
  }

  datatype State = State(logs: Registry, counts: Counts)

  /** The state after some packages: still going, or ended by an exception. */
  type Progress = Outcome<State, Fault>

  /** The state before the first package: only "main" is open, named after the subject. */
  function Initial(processName: string): State
  {
    State(map[MainStream := Log(processName + "_log.csv", [], true)], NoCounts)
  }

  /** One decoded package: the counter moves first, then the action is carried out. */
  function StepEvent(st: State, filesPath: string, ev: Event): Progress
  {
    var counts := Count(st.counts, ev.ordinal);
    match Apply(st.logs, filesPath, Classify(ev))
    case Applied(logs) => Done(State(logs, counts))
    case Failed(f) => Crashed(f, State(st.logs, counts))
  }

  /** One package, once unpacked: `struct.error` when it did not unpack. */
  function StepDecoded(st: State, filesPath: string, d: Option<Event>): Progress
  {
    match d
    case None => Crashed(StructError, st)
    case Some(ev) => StepEvent(st, filesPath, ev)
  }

  /** Handling one unpacked package, as a step of the loop. */
  function EventStep(filesPath: string): (State, Option<Event>) -> Progress
  {
    (st, d) => StepDecoded(st, filesPath, d)
  }

  /** Handling one package: unpacking it, then acting on it. */
  function PackageStep(filesPath: string): (State, seq<byte>) -> Progress
  {
    (st, pkg) => StepDecoded(st, filesPath, DecodeSigned(pkg))
  }

  /** Unpacked packages in order, up to the first exception. */
  function ProcessEvents(st: State, filesPath: string, ds: seq<Option<Event>>): Progress
  {
    Fold(EventStep(filesPath), st, ds)
  }

  /** The packages in order, up to the first exception. */
  function Process(st: State, filesPath: string, pkgs: seq<seq<byte>>): Progress
  {
    Fold(PackageStep(filesPath), st, pkgs)
  }

  /** Every package unpacked on its own. */
  function DecodeEach(pkgs: seq<seq<byte>>): (ds: seq<Option<Event>>)
    ensures |ds| == |pkgs|
  {
    seq(|pkgs|, i requires 0 <= i < |pkgs| => DecodeSigned(pkgs[i]))
  }

  /** Unpacking has no effect of its own: unpacking every package first and
      then acting on the results in order is the same as doing both package by
      package. */
  lemma ProcessIsProcessEvents(st: State, filesPath: string, pkgs: seq<seq<byte>>)
    ensures Process(st, filesPath, pkgs) == ProcessEvents(st, filesPath, DecodeEach(pkgs))
  {
    FoldOfMapped(PackageStep(filesPath), EventStep(filesPath), DecodeSigned, st, pkgs, DecodeEach(pkgs));
  }

  /** Closes every log in the registry, keeping its contents. */
  function CloseAll(logs: Registry): (r: Registry)
    ensures r.Keys == logs.Keys
    ensures forall n :: n in r ==> !r[n].isOpen && r[n].path == logs[n].path && r[n].lines == logs[n].lines
  {
    map n | n in logs :: logs[n].(isOpen := false)
  }

  /** `ReporterCommunicationChannel.run`: process what the schedule lets through,
      then close every log. An exception ends the thread with the logs still open. */
  function Run(filesPath: string, processName: string, chunks: seq<seq<byte>>, stopAt: nat): Progress
  {
    match Process(Initial(processName), filesPath, Scheduled(chunks, SrcConf.maxPkgSize, stopAt))
    case Done(st) => Done(State(CloseAll(st.logs), st.counts))
    case Crashed(f, st) => Crashed(f, st)
  }

  // ---------------------------------------------------------------------
  // One package at a time.

  /** "main" is present and every log is open. */
  predicate Ready(st: State)
  {
    MainStream in st.logs && forall n :: n in st.logs ==> st.logs[n].isOpen
  }

  /** Only the log named n changed, and it gained exactly one line. */
  predicate AppendedOne(before: Registry, after: Registry, n: string, line: Line)
  {
    && after.Keys == before.Keys
    && n in before
    && after[n] == before[n].(lines := before[n].lines + [line])
    && forall m :: m in before && m != n ==> after[m] == before[m]
  }

  /** Ordinals 0 to 3 write one `ts,<kind>,payload` line to "main", bump their
      own counter and leave every other log as it was. */
  lemma MainEventWritesOneLine(st: State, filesPath: string, ev: Event)
    requires Ready(st) && 0 <= ev.ordinal <= 3
    ensures StepEvent(st, filesPath, ev).Done?
    ensures AppendedOne(st.logs, StepEvent(st, filesPath, ev).state.logs, MainStream,
                        CsvLine(ev.timestamp, KindName(ev.ordinal), ev.payload))
    ensures GetCount(StepEvent(st, filesPath, ev).state.counts)[ev.ordinal]
            == GetCount(st.counts)[ev.ordinal] + 1
  {
  }

  /** An ordinal outside 0 to 5, negative ones included, writes `ts,invalid,payload`
      to "main" and bumps no counter. */
  lemma InvalidEventWritesOneLine(st: State, filesPath: string, ev: Event)
    requires Ready(st) && !(0 <= ev.ordinal <= 5)
    ensures StepEvent(st, filesPath, ev) ==
            Done(State(st.logs[MainStream := st.logs[MainStream].(lines :=
              st.logs[MainStream].lines + [CsvLine(ev.timestamp, "invalid", ev.payload)])], st.counts))
  {
  }

  /** Ordinal 4 maps the payload name to a fresh, empty log under the files
      path, replacing any log of that name; nothing is written and no counter moves. */
  lemma OpenEventReplacesLog(st: State, filesPath: string, ev: Event)
    requires ev.ordinal == 4
    ensures var r := StepEvent(st, filesPath, ev);
            && r.Done?
            && r.state.counts == st.counts
            && r.state.logs.Keys == st.logs.Keys + {ev.payload}
            && r.state.logs[ev.payload] == Log(filesPath + "/" + ev.payload + "_log.csv", [], true)
            && forall m :: m in st.logs && m != ev.payload ==> r.state.logs[m] == st.logs[m]
  {
  }

  /** A component named after the subject gets the path of "main" when the
      subject was started from the files path. The registry keeps the two
      logs apart by name; on disk they are one file. */
  lemma SubjectComponentSharesMainPath(filesPath: string, base: string)
    ensures LogPath(filesPath, base) == Initial(filesPath + "/" + base).logs[MainStream].path
  {
  }

  /** Ordinal 5 with payload `name,rest` writes `ts,rest` to the log of name and
      nothing anywhere else; it fails without a comma or when name was never opened.
      The component counter moves in every case, before the failure. */
  lemma RouteEventWritesToNamedLog(st: State, filesPath: string, ev: Event, name: string, rest: string)
    requires ev.ordinal == 5 && Ready(st)
    requires ev.payload == name + "," + rest && ',' !in name
    ensures var r := StepEvent(st, filesPath, ev);
            && r.state.counts == st.counts.(component := st.counts.component + 1)
            && (name in st.logs ==>
                  r.Done? && AppendedOne(st.logs, r.state.logs, name, Line(ev.timestamp, rest)))
            && (name !in st.logs ==> r == Crashed(KeyError(name), State(st.logs, r.state.counts)))
  {
    SplitFirstOfJoin(name, ',', rest);
  }

  lemma RouteEventWithoutCommaFails(st: State, filesPath: string, ev: Event)
    requires ev.ordinal == 5 && ',' !in ev.payload
    ensures StepEvent(st, filesPath, ev) ==
            Crashed(IndexError, State(st.logs, st.counts.(component := st.counts.component + 1)))
  {
  }

  /** A package decodes exactly when it is 1040 bytes long; otherwise the thread
      ends with `struct.error` and nothing changes. */
  lemma ShortPackageFails(st: State, filesPath: string, pkg: seq<byte>)
    ensures |pkg| != 1040 <==> StepDecoded(st, filesPath, DecodeSigned(pkg)) == Crashed(StructError, st)
  {
    var d := DecodeSigned(pkg);
    if d.Some? {
      EventNeverFailsToUnpack(st, filesPath, d.value);
    }
  }

  /** Only unpacking raises `struct.error`: an unpacked package never does. */
  lemma EventNeverFailsToUnpack(st: State, filesPath: string, ev: Event)
    ensures StepEvent(st, filesPath, ev).Crashed? ==> StepEvent(st, filesPath, ev).fault != StructError
  {
    var a := Classify(ev);
    assert a.Raise? ==> a.fault == IndexError;
  }

  // ---------------------------------------------------------------------
  // Whole runs.

  /** The registry only ever grows, and stays ready: "main" can never be
      missing, and only the failures of ordinal 5 and short packages remain. */
  lemma {:induction false} ProcessStaysReady(st: State, filesPath: string, ds: seq<Option<Event>>)
    requires Ready(st)
    ensures Ready(ProcessEvents(st, filesPath, ds).state)
    ensures st.logs.Keys <= ProcessEvents(st, filesPath, ds).state.logs.Keys
    ensures ProcessEvents(st, filesPath, ds).Crashed? ==>
              ProcessEvents(st, filesPath, ds).fault != KeyError(MainStream)
              && !ProcessEvents(st, filesPath, ds).fault.ClosedFile?
    decreases |ds|
  {
    if |ds| > 0 {
      var o := StepDecoded(st, filesPath, ds[0]);
      if o.Done? {
        ProcessStaysReady(o.state, filesPath, ds[1..]);
      }
    }
  }

  /** How many of the events carry the ordinal. */
  function Occurrences(events: seq<Event>, ordinal: int): nat
  {
    if |events| == 0 then 0
    else (if events[0].ordinal == ordinal then 1 else 0) + Occurrences(events[1..], ordinal)
  }

  /** The counters, tallied directly from the events. */
  function Tally(events: seq<Event>): Counts
  {
    Counts(Occurrences(events, 0), Occurrences(events, 1), Occurrences(events, 2),
           Occurrences(events, 3) + Occurrences(events, 5))
  }

  function AddCounts(a: Counts, b: Counts): Counts
  {
    Counts(a.timed + b.timed, a.state + b.state, a.process + b.process, a.component + b.component)
  }

  predicate AllDecoded(ds: seq<Option<Event>>)
  {
    forall i :: 0 <= i < |ds| ==> ds[i].Some?
  }

  function Values(ds: seq<Option<Event>>): (events: seq<Event>)
    requires AllDecoded(ds)
    ensures |events| == |ds|
  {
    seq(|ds|, i requires 0 <= i < |ds| => ds[i].value)
  }

  /** A run without an exception unpacked every package, and its counters are
      the tally of the ordinals it saw. */
  lemma {:induction false} ProcessCountsOrdinals(st: State, filesPath: string, ds: seq<Option<Event>>)
    ensures ProcessEvents(st, filesPath, ds).Done? ==> AllDecoded(ds)
    ensures ProcessEvents(st, filesPath, ds).Done? ==>
              ProcessEvents(st, filesPath, ds).state.counts == AddCounts(st.counts, Tally(Values(ds)))
    decreases |ds|
  {
    if |ds| > 0 {
      var o := StepDecoded(st, filesPath, ds[0]);
      if o.Done? {
        ProcessCountsOrdinals(o.state, filesPath, ds[1..]);
        if ProcessEvents(st, filesPath, ds).Done? {
          var events := Values(ds);
          assert Values(ds[1..]) == events[1..];
        }
      }
    }
  }

  /** The line a decoded package writes to stream n, if it writes one there. */
  function LinesTo(d: Option<Event>, n: string): seq<Line>
  {
    match d
    case None => []
    case Some(ev) =>
      match Classify(ev)
      case Append(m, line) => if m == n then [line] else []
      case _ => []
  }

  /** Every line the decoded packages write to stream n, in package order. */
  function RoutedLines(ds: seq<Option<Event>>, n: string): seq<Line>
  {
    Gather(d => LinesTo(d, n), ds)
  }

  /** The package is an ordinal-4 event naming stream n. */
  predicate Reopens(d: Option<Event>, n: string)
  {
    d.Some? && d.value.ordinal == 4 && d.value.payload == n
  }

  /** One package that does not reopen stream n adds to it at most its own line. */
  lemma StepAppendsInOrder(st: State, filesPath: string, d: Option<Event>, n: string)
    requires n in st.logs && StepDecoded(st, filesPath, d).Done? && !Reopens(d, n)
    ensures n in StepDecoded(st, filesPath, d).state.logs
    ensures StepDecoded(st, filesPath, d).state.logs[n].lines == st.logs[n].lines + LinesTo(d, n)
  {
  }

  /** One step adds to log n exactly the lines picks out for the package,
      unless the package reopens n. */
  ghost predicate AppendsPicked(step: (State, Option<Event>) -> Progress,
                                picks: Option<Event> -> seq<Line>, n: string)
  {
    forall st: State, d: Option<Event> {:trigger step(st, d)} ::
      n in st.logs && step(st, d).Done? && !Reopens(d, n) ==>
        && n in step(st, d).state.logs
        && step(st, d).state.logs[n].lines == st.logs[n].lines + picks(d)
  }

  /** Handling packages one at a time with such a step appends what picks
      gathers from all of them. */
  lemma {:induction false} FoldAppendsPicked(step: (State, Option<Event>) -> Progress,
                                             picks: Option<Event> -> seq<Line>, st: State,
                                             ds: seq<Option<Event>>, n: string)
    requires AppendsPicked(step, picks, n)
    requires n in st.logs && Fold(step, st, ds).Done?
    requires forall i :: 0 <= i < |ds| ==> !Reopens(ds[i], n)
    ensures n in Fold(step, st, ds).state.logs
    ensures Fold(step, st, ds).state.logs[n].lines == st.logs[n].lines + Gather(picks, ds)
    decreases |ds|
  {
    if |ds| > 0 {
      var o := step(st, ds[0]);
      assert !Reopens(ds[0], n);
      FoldAppendsPicked(step, picks, o.state, ds[1..], n);
    }
  }

  /** Lines reach a log in the order their packages arrived, none lost and none
      added: unless a package reopens the stream, a completed run leaves it
      holding its old lines followed by exactly the lines routed to it. */
  lemma ProcessAppendsInOrder(st: State, filesPath: string, ds: seq<Option<Event>>, n: string)
    requires n in st.logs && ProcessEvents(st, filesPath, ds).Done?
    requires forall i :: 0 <= i < |ds| ==> !Reopens(ds[i], n)
    ensures n in ProcessEvents(st, filesPath, ds).state.logs
    ensures ProcessEvents(st, filesPath, ds).state.logs[n].lines == st.logs[n].lines + RoutedLines(ds, n)
  {
    var step := EventStep(filesPath);
    var picks := d => LinesTo(d, n);
    forall s: State, d: Option<Event> | n in s.logs && step(s, d).Done? && !Reopens(d, n)
      ensures n in step(s, d).state.logs
      ensures step(s, d).state.logs[n].lines == s.logs[n].lines + picks(d)
    {
      StepAppendsInOrder(s, filesPath, d, n);
    }
    FoldAppendsPicked(step, picks, st, ds, n);
  }

  /** A completed src run ends with every log closed and "main" among them. */
  lemma RunClosesEverything(filesPath: string, processName: string, chunks: seq<seq<byte>>, stopAt: nat)
    ensures var r := Run(filesPath, processName, chunks, stopAt);
            && MainStream in r.state.logs
            && (r.Done? ==> forall n :: n in r.state.logs ==> !r.state.logs[n].isOpen)
  {
    var st := Initial(processName);
    var pkgs := Scheduled(chunks, SrcConf.maxPkgSize, stopAt);
    ProcessIsProcessEvents(st, filesPath, pkgs);
    ProcessStaysReady(st, filesPath, DecodeEach(pkgs));
  }

  // ---------------------------------------------------------------------
  // The gui variant.

  /** `ReporterCommunicationChannel` of the gui: the thread's registry and the stop flag. */
  datatype GuiChannel = GuiChannel(stopSet: bool, state: State)

  /** `stop`: sets the flag and closes every log, whatever the thread is doing. */
  function GuiStop(ch: GuiChannel): (r: GuiChannel)
    ensures r.stopSet && r.state.counts == ch.state.counts
    ensures r.state.logs.Keys == ch.state.logs.Keys
    ensures forall n :: n in r.state.logs ==>
              !r.state.logs[n].isOpen && r.state.logs[n].lines == ch.state.logs[n].lines
  {
    GuiChannel(true, State(CloseAll(ch.state.logs), ch.state.counts))
  }

  /** A package that slips past the poll after `stop` closed the logs ends the
      thread when it tries to write. */
  lemma GuiWriteAfterStopFails(ch: GuiChannel, filesPath: string, ev: Event)
    requires MainStream in ch.state.logs && 0 <= ev.ordinal <= 3
    ensures StepEvent(GuiStop(ch).state, filesPath, ev).Crashed?
    ensures StepEvent(GuiStop(ch).state, filesPath, ev).fault == ClosedFile(MainStream)
  {
  }

  /** The gui thread's `__process_incoming_data`: the polling loop, unpacking
      with `qi1028s`. It handles exactly what the src thread does. */
  method GuiProcessIncoming(filesPath: string, processName: string, chunks: seq<seq<byte>>, stopAt: nat)
    returns (out: Progress)
    ensures out == Process(Initial(processName), filesPath, Scheduled(chunks, SrcConf.maxPkgSize, stopAt))
  {
    out := PollingLoop(PackageStep(filesPath), Initial(processName), chunks, SrcConf.maxPkgSize, stopAt);
  }
}

=== FILE: frames.dfy ===
/**
 The wire frames the subject writes to its standard output, the buffer
 constants of the two channel configurations, the split of a read buffer
 into packages, and the text of a frame's payload.

 Two struct layouts are in use: `qi1028s` (signed 8-byte timestamp, signed
 4-byte ordinal, 1028 payload bytes; 1040 bytes in all) in src/, gui/ and the
 oldest reporter, and `QI1012s` (the same fields unsigned, 1012 payload bytes;
 1024 bytes in all) in rt_reporter/. With native alignment the 4-byte field
 falls on offset 8 and the payload on offset 12, so neither layout has any
 padding. Byte order is taken to be little-endian.
 */
module Frames {
  import opened Basics
  import opened Bytes
  import opened Text
  import PyRepr

  datatype FrameFormat = FrameFormat(signedFields: bool, payloadLength: nat)

  /** `struct` format "qi1028s". */
  const SignedFormat := FrameFormat(true, 1028)
  /** `struct` format "QI1012s". */
  const UnsignedFormat := FrameFormat(false, 1012)

  const TimestampBytes: nat := 8
  const OrdinalBytes: nat := 4
  const PayloadOffset: nat := TimestampBytes + OrdinalBytes

  /** `struct.calcsize` of a layout. */
  function FrameSize(f: FrameFormat): nat
  {
    PayloadOffset + f.payloadLength
  }

  /** One unpacked package: (timestamp, type ordinal, payload bytes). */
  datatype Frame = Frame(timestamp: int, ordinal: int, data: seq<byte>)

  /** The values a field of k bytes can hold in layout f. */
  predicate FieldFits(f: FrameFormat, v: int, k: nat)
    requires k > 0
  {
    if f.signedFields then -HalfRange(k) <= v < HalfRange(k) else 0 <= v < Pow256(k)
  }

  /** fr is a frame layout f can carry. */
  predicate Fits(f: FrameFormat, fr: Frame)
  {
    && FieldFits(f, fr.timestamp, TimestampBytes)
    && FieldFits(f, fr.ordinal, OrdinalBytes)
    && |fr.data| == f.payloadLength
  }

  /** The value a field's bytes stand for in layout f. */
  function ReadField(f: FrameFormat, s: seq<byte>): (v: int)
    requires |s| > 0
    ensures FieldFits(f, v, |s|)
  {
    if f.signedFields then ToSigned(LittleEndian(s), |s|) else LittleEndian(s)
  }

  /** The k bytes that stand for v in layout f. */
  function WriteField(f: FrameFormat, v: int, k: nat): (s: seq<byte>)
    requires k > 0 && FieldFits(f, v, k)
    ensures |s| == k
  {
    if f.signedFields then ToLittleEndian(FromSigned(v, k), k) else ToLittleEndian(v, k)
  }

  lemma ReadOfWriteField(f: FrameFormat, v: int, k: nat)
    requires k > 0 && FieldFits(f, v, k)
    ensures ReadField(f, WriteField(f, v, k)) == v
  {
    if f.signedFields {
      LittleEndianOfEncoding(FromSigned(v, k), k);
      SignedRoundTrip(v, k);
    } else {
      LittleEndianOfEncoding(v, k);
    }
  }

  lemma WriteOfReadField(f: FrameFormat, s: seq<byte>)
    requires |s| > 0
    ensures WriteField(f, ReadField(f, s), |s|) == s
  {
    EncodingOfLittleEndian(s);
    if f.signedFields {
      UnsignedRoundTrip(LittleEndian(s), |s|);
    }
  }

  /** The outcome of `struct.unpack`: a frame, or `struct.error` for a package of the wrong size. */
  datatype Unpacked = Unpacked(frame: Frame) | WrongSize

  /** `struct.unpack(format, pkg)`: defined exactly when pkg has the layout's size. */
  function Unpack(f: FrameFormat, pkg: seq<byte>): (r: Unpacked)
    ensures r.Unpacked? <==> |pkg| == FrameSize(f)
    ensures r.Unpacked? ==> r.frame.data == pkg[PayloadOffset..]
  {
    if |pkg| != FrameSize(f) then WrongSize
    else
      Unpacked(Frame(
        ReadField(f, pkg[..TimestampBytes]),
        ReadField(f, pkg[TimestampBytes..PayloadOffset]),
        pkg[PayloadOffset..]))
  }

  /** `struct.pack(format, ...)`: the package the subject writes for fr. */
  function Pack(f: FrameFormat, fr: Frame): (pkg: seq<byte>)
    requires Fits(f, fr)
    ensures |pkg| == FrameSize(f)
  {
    WriteField(f, fr.timestamp, TimestampBytes) + WriteField(f, fr.ordinal, OrdinalBytes) + fr.data
  }

  lemma UnpackOfPack(f: FrameFormat, fr: Frame)
    requires Fits(f, fr)
    ensures Unpack(f, Pack(f, fr)) == Unpacked(fr)
  {
    var pkg := Pack(f, fr);
    assert pkg[..TimestampBytes] == WriteField(f, fr.timestamp, TimestampBytes);
    assert pkg[TimestampBytes..PayloadOffset] == WriteField(f, fr.ordinal, OrdinalBytes);
    assert pkg[PayloadOffset..] == fr.data;
    ReadOfWriteField(f, fr.timestamp, TimestampBytes);
    ReadOfWriteField(f, fr.ordinal, OrdinalBytes);
  }

  /** Every package of the right size unpacks to a frame the layout can carry,
      and packing that frame gives the package back. */
  lemma PackOfUnpack(f: FrameFormat, pkg: seq<byte>)
    requires |pkg| == FrameSize(f)
    ensures Fits(f, Unpack(f, pkg).frame) && Pack(f, Unpack(f, pkg).frame) == pkg
  {
    WriteOfReadField(f, pkg[..TimestampBytes]);
    WriteOfReadField(f, pkg[TimestampBytes..PayloadOffset]);
    assert pkg == pkg[..TimestampBytes] + pkg[TimestampBytes..PayloadOffset] + pkg[PayloadOffset..];
  }

  // ---------------------------------------------------------------------
  // Splitting a read buffer into packages.

  /** The number of packages of size n in a buffer of length len: the ceiling of len / n. */
  function PackageCount(len: nat, n: nat): nat
    requires n > 0
  {
    if len == 0 then 0
    else if len <= n then 1
    else 1 + PackageCount(len - n, n)
  }

  lemma {:induction false} PackageCountIsCeiling(len: nat, n: nat)
    requires n > 0
    ensures len == 0 ==> PackageCount(len, n) == 0
    ensures len > 0 ==> (PackageCount(len, n) - 1) * n < len <= PackageCount(len, n) * n
  {
    if len > n {
      var c := PackageCount(len - n, n);
      PackageCountIsCeiling(len - n, n);
      assert (c + 1) * n == c * n + n;
      assert (c - 1) * n + n == c * n;
    }
  }

  /** `[buf[i : i + n] for i in range(start, len(buf), n)]`. */
  function PackagesFrom(buf: seq<byte>, n: nat, start: nat): (pkgs: seq<seq<byte>>)
    requires n > 0
    ensures start <= |buf| ==> |pkgs| == PackageCount(|buf| - start, n)
    decreases |buf| - start
  {
    if start >= |buf| then []
    else [buf[start..Min(start + n, |buf|)]] + PackagesFrom(buf, n, start + n)
  }

  /** `[buf[i : i + n] for i in range(0, len(buf), n)]`. */
  function Packages(buf: seq<byte>, n: nat): seq<seq<byte>>
    requires n > 0
  {
    PackagesFrom(buf, n, 0)
  }

  function Concat(pkgs: seq<seq<byte>>): seq<byte>
  {
    if |pkgs| == 0 then [] else pkgs[0] + Concat(pkgs[1..])
  }

  /** Every package is a non-empty slice of at most n bytes, all but the last
      have exactly n, and together they are the buffer from start on. */
  lemma {:induction false} PackagesFromAreLossless(buf: seq<byte>, n: nat, start: nat)
    requires n > 0 && start <= |buf|
    ensures Concat(PackagesFrom(buf, n, start)) == buf[start..]
    ensures forall i :: 0 <= i < |PackagesFrom(buf, n, start)| ==>
              0 < |PackagesFrom(buf, n, start)[i]| <= n
    ensures forall i :: 0 <= i < |PackagesFrom(buf, n, start)| - 1 ==>
              |PackagesFrom(buf, n, start)[i]| == n
    decreases |buf| - start
  {
    var pkgs := PackagesFrom(buf, n, start);
    if start < |buf| {
      if start + n < |buf| {
        PackagesFromAreLossless(buf, n, start + n);
        assert buf[start..] == buf[start..start + n] + buf[start + n..];
      }
      assert pkgs[1..] == PackagesFrom(buf, n, start + n);
    }
  }

  /** Splitting loses nothing, and gives the ceiling of |buf| / n packages,
      each full but the last, which is not empty. */
  lemma PackagesAreLossless(buf: seq<byte>, n: nat)
    requires n > 0
    ensures Concat(Packages(buf, n)) == buf
    ensures |Packages(buf, n)| == PackageCount(|buf|, n)
    ensures forall i :: 0 <= i < |Packages(buf, n)| - 1 ==> |Packages(buf, n)[i]| == n
    ensures |buf| > 0 ==> 0 < |Packages(buf, n)[|Packages(buf, n)| - 1]| <= n
  {
    PackagesFromAreLossless(buf, n, 0);
  }

  /** A buffer of k whole packages splits into exactly k packages of n bytes. */
  lemma {:induction false} PackagesOfWholeFrom(buf: seq<byte>, n: nat, start: nat, k: nat)
    requires n > 0 && start + k * n == |buf|
    ensures |PackagesFrom(buf, n, start)| == k
    ensures forall i :: 0 <= i < k ==> |PackagesFrom(buf, n, start)[i]| == n
    decreases k
  {
    if k > 0 {
      assert start + n + (k - 1) * n == |buf|;
      PackagesOfWholeFrom(buf, n, start + n, k - 1);
      assert PackagesFrom(buf, n, start)[1..] == PackagesFrom(buf, n, start + n);
    }
  }

  // ---------------------------------------------------------------------
  // Channel configurations.

  /** `CommunicationChannelConf`: the pipe buffer, the package size, and how
      many whole packages one read takes. */
  datatype ChannelConf = ChannelConf(bufferSize: nat, maxPkgSize: nat, capacity: int)

  /** Python's `int(x)`: truncation toward zero. */
  function TruncateReal(x: real): int
  {
    if x >= 0.0 then x.Floor else -((-x).Floor)
  }

  /** `capacity = int(buffer_size / max_pkg_size)`, with `/` the true division. */
  function MakeConf(bufferSize: nat, maxPkgSize: nat): (c: ChannelConf)
    requires maxPkgSize > 0
    ensures c.bufferSize == bufferSize && c.maxPkgSize == maxPkgSize
    ensures c.capacity >= 0
    ensures c.capacity * maxPkgSize <= bufferSize < (c.capacity + 1) * maxPkgSize
  {
    var q := bufferSize / maxPkgSize;
    var x := bufferSize as real / maxPkgSize as real;
    assert x == q as real + (bufferSize % maxPkgSize) as real / maxPkgSize as real;
    assert q as real <= x < (q + 1) as real;
    ChannelConf(bufferSize, maxPkgSize, TruncateReal(x))
  }

  /** src/communication_channel_conf.py. */
  const SrcConf := ChannelConf(65536, 1040, 63)
  /** The configuration class embedded in src/communitationChannelReporter.py. */
  const LegacyConf := ChannelConf(65536, 1040, 63)
  /** rt_reporter/src/communication_channel_conf.py. */
  const RtConf := ChannelConf(65536, 1024, 64)

  /** How many bytes one read asks the pipe for: `capacity * max_pkg_size`. */
  function ReadSize(c: ChannelConf): int
  {
    c.capacity * c.maxPkgSize
  }

  /** The src configuration is what its class computes: packages the size of a
      `qi1028s` frame, 63 of them to a read, 16 bytes of the pipe buffer unused. */
  lemma SrcConfValues()
    ensures SrcConf == MakeConf(65536, 1040)
    ensures SrcConf.maxPkgSize == FrameSize(SignedFormat)
    ensures ReadSize(SrcConf) == 65520 && SrcConf.bufferSize - ReadSize(SrcConf) == 16
  {
  }

  lemma LegacyConfValues()
    ensures LegacyConf == MakeConf(65536, 1040)
    ensures LegacyConf.maxPkgSize == FrameSize(SignedFormat)
  {
  }

  /** The rt_reporter configuration: packages the size of a `QI1012s` frame,
      64 of them filling the pipe buffer exactly. */
  lemma RtConfValues()
    ensures RtConf == MakeConf(65536, 1024)
    ensures RtConf.maxPkgSize == FrameSize(UnsignedFormat)
    ensures ReadSize(RtConf) == RtConf.bufferSize
  {
  }

  /** A read that fills its request splits into exactly `capacity` whole packages. */
  lemma FullReadSplitsWhole(c: ChannelConf, buf: seq<byte>)
    requires c.maxPkgSize > 0 && c.capacity >= 0 && |buf| == ReadSize(c)
    ensures |Packages(buf, c.maxPkgSize)| == c.capacity
    ensures forall i :: 0 <= i < c.capacity ==> |Packages(buf, c.maxPkgSize)[i]| == c.maxPkgSize
  {
    PackagesOfWholeFrom(buf, c.maxPkgSize, 0, c.capacity);
  }

  // ---------------------------------------------------------------------
  // The text of a payload.

  /** `str(data)[2:][:cut].strip()`: the rendered payload cut to `cut` characters and stripped. */
  function PayloadText(data: seq<byte>, cut: nat): string
  {
    Strip(Take(PyRepr.Render(data), cut))
  }

  /** The payload text is at most `cut` characters, has no whitespace at
      either end, and holds no line break. */
  lemma PayloadTextShape(data: seq<byte>, cut: nat)
    ensures var r := PayloadText(data, cut);
            |r| <= cut && IsStripped(r) && '\n' !in r && '\r' !in r
  {
    var rendered := PyRepr.Render(data);
    PyRepr.RenderIsPrintable(data);
    var t := Take(rendered, cut);
    StripOfPrintable(t);
    PrintableHasNoLineBreak(Strip(t));
  }

  /** The spaces a subject pads a payload with. */
  function Spaces(k: nat): (s: seq<byte>)
    ensures |s| == k && forall i :: 0 <= i < k ==> s[i] == 32
  {
    seq(k, _ => 32)
  }

  /** Plain text padded with spaces to the payload length comes back out of the
      payload field unchanged, as long as the cut falls inside the padding. */
  lemma PayloadOfPadded(text: seq<byte>, pad: nat, cut: nat)
    requires forall k :: 0 <= k < |text| ==> PyRepr.IsPlainByte(text[k])
    requires IsStripped(PyRepr.AsText(text))
    requires |text| <= cut <= |text| + pad
    ensures PayloadText(text + Spaces(pad), cut) == PyRepr.AsText(text)
  {
    var data := text + Spaces(pad);
    PyRepr.RenderOfPlain(data);
    var t := PyRepr.AsText(text);
    var rendered := PyRepr.AsText(data) + "'";
    var cutText := Take(rendered, cut);
    assert cutText == t + cutText[|t|..];
    StripOfPadded(t, cutText[|t|..]);
  }

  // ---------------------------------------------------------------------
  // Decoded packages.

  /** An unpacked package: its timestamp, its type ordinal and its payload text. */
  datatype Event = Event(timestamp: int, ordinal: int, payload: string)

  /** `struct.unpack` with layout f, keeping the payload as `str(data)[2:][:cut].strip()`;
      nothing when the package does not have the layout's size. */
  function DecodeEvent(f: FrameFormat, cut: nat, pkg: seq<byte>): (r: Option<Event>)
    ensures r.Some? <==> |pkg| == FrameSize(f)
    ensures r.Some? ==> && FieldFits(f, r.value.timestamp, TimestampBytes)
                        && FieldFits(f, r.value.ordinal, OrdinalBytes)
                        && r.value.payload == PayloadText(pkg[PayloadOffset..], cut)
  {
    match Unpack(f, pkg)
    case WrongSize => None
    case Unpacked(fr) => Some(Event(fr.timestamp, fr.ordinal, PayloadText(pkg[PayloadOffset..], cut)))
  }

  /** The payload cut of the `qi1028s` readers: the src and gui
      demultiplexer and the legacy reporter all keep 1020 characters. */
  const SignedPayloadCut: nat := 1020

  /** `struct.unpack('qi1028s', pkg)` as the src, gui and legacy readers do
      it, keeping the payload text cut to 1020 characters and stripped. */
  function DecodeSigned(pkg: seq<byte>): (r: Option<Event>)
    ensures r.Some? <==> |pkg| == 1040
  {
    DecodeEvent(SignedFormat, SignedPayloadCut, pkg)
  }
}

=== FILE: legacy.dfy ===
/**
 The oldest reporter, `CommunicationChannelReporter` of
 src/communitationChannelReporter.py: one output file and two counters.

 Packages are `qi1028s` frames of 1040 bytes, read and polled as in the src
 demultiplexer (the stop flag is checked at the head of every read and
 before every package). Ordinal 0 is a hardware event and every other
 ordinal a workflow event; each package writes one line
 `ts,<kind>,payload` with the payload text cut to 1020 characters and
 stripped. A package that does not unpack raises `struct.error` before any
 counter moves.
 */
module Legacy {
  import opened Basics
  import opened Bytes
  import opened Frames
  import opened Polling
  import opened Csv

  /** The exception the loop raises: `struct.error`. */
  datatype Crash = StructError

  /** The output file's lines and the two counters. */
  datatype Report = Report(lines: seq<Line>, workflow: nat, hardware: nat)

  /** The report as the constructor leaves it: an empty file, both counters 0. */
  const Empty := Report([], 0, 0)

  /** `get_count` without the file size: the workflow count, then the hardware count. */
  function GetCount(rep: Report): (r: seq<nat>)
    ensures |r| == 2 && r[0] == rep.workflow && r[1] == rep.hardware
  {
    [rep.workflow, rep.hardware]
  }

  const Hardware := "hardware_event"
  const Workflow := "workflow_event"

  /** The kind of an event: hardware exactly for ordinal 0. */
  function KindOf(ordinal: int): (name: string)
    ensures name == Hardware <==> ordinal == 0
    ensures name == Workflow <==> ordinal != 0
  {
    if ordinal == 0 then Hardware else Workflow
  }

  /** The line a decoded event writes. */
  function LineOf(ev: Event): Line
  {
    CsvLine(ev.timestamp, KindOf(ev.ordinal), ev.payload)
  }

  /** One package: unpack, count, write. */
  function Step(rep: Report, pkg: seq<byte>): Outcome<Report, Crash>
  {
    match DecodeSigned(pkg)
    case None => Crashed(StructError, rep)
    case Some(ev) => Done(StepEvent(rep, ev))
  }

  /** One unpacked event: count it, then write its line. */
  function StepEvent(rep: Report, ev: Event): Report
  {
    var rep' := if ev.ordinal == 0 then rep.(hardware := rep.hardware + 1)
                else rep.(workflow := rep.workflow + 1);
    rep'.(lines := rep.lines + [LineOf(ev)])
  }

  /** The lines a package writes, on their own. */
  function LinesFor(pkg: seq<byte>): seq<Line>
  {
    match DecodeSigned(pkg)
    case None => []
    case Some(ev) => [LineOf(ev)]
  }

  /** `__process_incoming_data`: the polling loop over what the schedule lets
      through. */
  method ProcessIncoming(chunks: seq<seq<byte>>, stopAt: nat) returns (out: Outcome<Report, Crash>)
    ensures out == Fold(Step, Empty, Scheduled(chunks, LegacyConf.maxPkgSize, stopAt))
  {
    out := PollingLoop(Step, Empty, chunks, LegacyConf.maxPkgSize, stopAt);
  }

  // ---------------------------------------------------------------------
  // The counters against the file.

  /** A line written for a hardware event. */
  predicate IsHardwareLine(l: Line)
  {
    IsPrefix(Hardware + ",", l.text)
  }

  /** The number of lines for hardware events. */
  function HardwareLines(ls: seq<Line>): (n: nat)
    ensures n <= |ls|
    decreases |ls|
  {
    if |ls| == 0 then 0
    else HardwareLines(ls[..|ls| - 1]) + (if IsHardwareLine(ls[|ls| - 1]) then 1 else 0)
  }

  /** The hardware counter counts the hardware lines of the file, and the
      workflow counter the others. */
  predicate Tallied(rep: Report)
  {
    rep.hardware == HardwareLines(rep.lines) && rep.workflow == |rep.lines| - HardwareLines(rep.lines)
  }

  /** A line is a hardware line exactly when it was written for ordinal 0. */
  lemma LineOfIsHardware(ev: Event)
    ensures IsHardwareLine(LineOf(ev)) <==> ev.ordinal == 0
  {
    var text := KindOf(ev.ordinal) + "," + ev.payload;
    assert text[..15] == KindOf(ev.ordinal) + ",";
    if ev.ordinal != 0 {
      assert text[0] == 'w';
    }
  }

  /** Every step keeps the counters in line with the file. */
  lemma StepTallies(rep: Report, pkg: seq<byte>)
    requires Tallied(rep)
    ensures Tallied(Step(rep, pkg).state)
  {
    match DecodeSigned(pkg)
    case None =>
      assert Step(rep, pkg).state == rep;
    case Some(ev) =>
      assert Step(rep, pkg).state == StepEvent(rep, ev);
      EventTallies(rep, ev);
  }

  /** Every event keeps the counters in line with the file. */
  lemma EventTallies(rep: Report, ev: Event)
    requires Tallied(rep)
    ensures Tallied(StepEvent(rep, ev))
  {
    var ls := rep.lines + [LineOf(ev)];
    assert ls[..|ls| - 1] == rep.lines;
    LineOfIsHardware(ev);
  }

  /** However the loop ends, the counters match the file: hardware plus
      workflow is the number of lines written. */
  lemma {:induction false} ProcessTallies(chunks: seq<seq<byte>>, stopAt: nat)
    ensures var rep := Fold(Step, Empty, Scheduled(chunks, LegacyConf.maxPkgSize, stopAt)).state;
            && Tallied(rep)
            && rep.hardware + rep.workflow == |rep.lines|
            && GetCount(rep) == [|rep.lines| - HardwareLines(rep.lines), HardwareLines(rep.lines)]
  {
    forall rep, pkg | Tallied(rep)
      ensures Tallied(Step(rep, pkg).state)
    {
      StepTallies(rep, pkg);
    }
    var pkgs := Scheduled(chunks, LegacyConf.maxPkgSize, stopAt);
    FoldPreserves(Step, Tallied, Empty, pkgs);
    var rep := Fold(Step, Empty, pkgs).state;
    assert Tallied(rep);
    TalliedCount(rep);
  }

  /** The counts of a tallied report are its workflow lines and its hardware lines. */
  lemma TalliedCount(rep: Report)
    requires Tallied(rep)
    ensures GetCount(rep) == [|rep.lines| - HardwareLines(rep.lines), HardwareLines(rep.lines)]
  {
  }

  /** A loop that ends without exception has written one line per package
      handled, in order. */
  lemma {:induction false} ProcessWritesInOrder(chunks: seq<seq<byte>>, stopAt: nat)
    ensures var o := Fold(Step, Empty, Scheduled(chunks, LegacyConf.maxPkgSize, stopAt));
            o.Done? ==> o.state.lines == Gather(LinesFor, Scheduled(chunks, LegacyConf.maxPkgSize, stopAt))
  {
    assert forall s, x :: Step(s, x).Done? ==> Step(s, x).state.lines == s.lines + LinesFor(x);
    FoldGathers(Step, (r: Report) => r.lines, LinesFor, Empty, Scheduled(chunks, LegacyConf.maxPkgSize, stopAt));
  }
}

=== FILE: paths.dfy ===
/**
 The path checks of rt_reporter/utility.py: `validate_input_path` and
 `validate_output_path`, each answering a flag and a message.

 The file system is given as the answers of the calls the checks make
 (`resolve`, `exists`, `is_file`, `is_dir`, `os.access`), and the message of
 the exception `resolve` raises as a string.
 */
module Paths {
  import opened Basics

  /** What the file system says about a path to read. */
  datatype InputFacts = InputFacts(resolves: bool, present: bool, isFile: bool, readable: bool)

  /** What the file system says about a path to write, once resolved. */
  datatype OutputFacts = OutputFacts(resolveError: Option<string>, present: bool, isDir: bool, writable: bool,
                                     parent: string, parentExists: bool, parentWritable: bool)

  /** The answer of a check. */
  datatype Verdict = Verdict(valid: bool, message: string)

  /** A check in a list of checks: whether it passes and what it says when
      it does not. */
  datatype Check = Check(passes: bool, failure: string)

  /** The first check that fails, in order, or the verdict for passing them all. */
  function FirstFailure(checks: seq<Check>, pass: string): (v: Verdict)
    ensures v.valid <==> forall i :: 0 <= i < |checks| ==> checks[i].passes
    ensures v.valid ==> v.message == pass
    decreases |checks|
  {
    if |checks| == 0 then Verdict(true, pass)
    else if !checks[0].passes then Verdict(false, checks[0].failure)
    else FirstFailure(checks[1..], pass)
  }

  /** A failing verdict gives the message of the first check that fails. */
  lemma {:induction false} FirstFailureMessage(checks: seq<Check>, pass: string, k: nat)
    requires k < |checks| && !checks[k].passes
    requires forall i :: 0 <= i < k ==> checks[i].passes
    ensures FirstFailure(checks, pass) == Verdict(false, checks[k].failure)
    decreases k
  {
    if k > 0 {
      FirstFailureMessage(checks[1..], pass, k - 1);
    }
  }

  // ---------------------------------------------------------------------
  // validate_input_path

  const BadSyntax := "Invalid path syntax or characters."
  const NoSuchPath := "Path does not exist."
  const NotAFile := "Path is not a file."
  const NoRead := "No read permission."
  const InputValid := "Path is valid."

  /** The input checks in the order the function makes them. */
  function InputChecks(p: InputFacts): seq<Check>
  {
    [Check(p.resolves, BadSyntax), Check(p.present, NoSuchPath), Check(p.isFile, NotAFile), Check(p.readable, NoRead)]
  }

  /** `validate_input_path`. */
  function ValidateInputPath(p: InputFacts): (v: Verdict)
    ensures v.valid <==> p.resolves && p.present && p.isFile && p.readable
    ensures v.valid ==> v.message == InputValid
  {
    if !p.resolves then Verdict(false, BadSyntax)
    else if !p.present then Verdict(false, NoSuchPath)
    else if !p.isFile then Verdict(false, NotAFile)
    else if !p.readable then Verdict(false, NoRead)
    else Verdict(true, InputValid)
  }

  /** The input check answers as the first of its checks that fails. */
  lemma ValidateInputPathIsFirstFailure(p: InputFacts)
    ensures ValidateInputPath(p) == FirstFailure(InputChecks(p), InputValid)
  {
    var cs := InputChecks(p);
    if !p.resolves { FirstFailureMessage(cs, InputValid, 0); }
    else if !p.present { FirstFailureMessage(cs, InputValid, 1); }
    else if !p.isFile { FirstFailureMessage(cs, InputValid, 2); }
    else if !p.readable { FirstFailureMessage(cs, InputValid, 3); }
  }

  // ---------------------------------------------------------------------
  // validate_output_path

  const NoDirWrite := "No write permission in directory."
  const DirValid := "Directory is valid."
  const NoFileWrite := "No write permission for file."
  const FileValid := "File is valid."
  const NewFileValid := "Path is valid for new file."

  function InvalidPath(e: string): string
  {
    "Invalid path: " + e
  }

  function NoParent(parent: string): string
  {
    "Parent directory " + parent + " does not exist."
  }

  function NoParentWrite(parent: string): string
  {
    "No write permission in parent directory " + parent + "."
  }

  /** `validate_output_path`. */
  function ValidateOutputPath(p: OutputFacts): (v: Verdict)
    ensures p.resolveError.Some? ==> v == Verdict(false, InvalidPath(p.resolveError.value))
    ensures p.resolveError.None? && p.present ==> (v.valid <==> p.writable)
    ensures p.resolveError.None? && !p.present ==> (v.valid <==> p.parentExists && p.parentWritable)
    ensures p.resolveError.None? && !p.present && !p.parentExists ==> v.message == NoParent(p.parent)
  {
    match p.resolveError
    case Some(e) => Verdict(false, InvalidPath(e))
    case None =>
      if p.present then
        if p.isDir then
          if !p.writable then Verdict(false, NoDirWrite) else Verdict(true, DirValid)
        else
          if !p.writable then Verdict(false, NoFileWrite) else Verdict(true, FileValid)
      else
        if !p.parentExists then Verdict(false, NoParent(p.parent))
        else if !p.parentWritable then Verdict(false, NoParentWrite(p.parent))
        else Verdict(true, NewFileValid)
  }

  /** The output checks, in the order the function makes them on a path
      that resolves. */
  function OutputChecks(p: OutputFacts): (seq<Check>, string)
  {
    if p.present then
      if p.isDir then ([Check(p.writable, NoDirWrite)], DirValid)
      else ([Check(p.writable, NoFileWrite)], FileValid)
    else ([Check(p.parentExists, NoParent(p.parent)), Check(p.parentWritable, NoParentWrite(p.parent))], NewFileValid)
  }

  /** On a path that resolves, the output check answers as the first of its
      checks that fails. */
  lemma ValidateOutputPathIsFirstFailure(p: OutputFacts)
    requires p.resolveError.None?
    ensures ValidateOutputPath(p) == FirstFailure(OutputChecks(p).0, OutputChecks(p).1)
  {
    var (cs, pass) := OutputChecks(p);
    if !cs[0].passes {
      FirstFailureMessage(cs, pass, 0);
    } else if |cs| == 2 && !cs[1].passes {
      FirstFailureMessage(cs, pass, 1);
    }
  }
}

=== FILE: polling.dfy ===
/**
 Which packages a reading loop processes before it notices the stop flag.

 The loops of src/reporter_communication_channel.py,
 gui/reporter_communication_channel.py and src/communitationChannelReporter.py
 poll a stop flag at the head of every read and again before every package
 of the buffer just read. The flag is set by another thread and never
 cleared while the loop runs, so whatever the interleaving, the loop sees it
 clear on its first polls and set on all later ones. A run is therefore
 described by the chunks the pipe returns and by `stopAt`, the number of the
 first poll (counting from 0) that sees the flag set.

 Once the subject has exited, every further read returns no bytes; the loop
 then spins on empty chunks until the flag is set, processing nothing more.
 So the finite sequence of non-trivial chunks is all that matters.
 */
module Polling {
  import opened Basics
  import opened Bytes
  import opened Frames

  /** Every package of every read, in order. */
  function AllPackages(chunks: seq<seq<byte>>, n: nat): seq<seq<byte>>
    requires n > 0
  {
    if |chunks| == 0 then [] else Packages(chunks[0], n) + AllPackages(chunks[1..], n)
  }

  /** The bytes each pass of a loop reads, found in its observation by `read`. */
  function Reads<R>(rounds: seq<R>, read: R -> seq<byte>): (c: seq<seq<byte>>)
    ensures |c| == |rounds| && forall i :: 0 <= i < |rounds| ==> c[i] == read(rounds[i])
  {
    seq(|rounds|, i requires 0 <= i < |rounds| => read(rounds[i]))
  }

  /** The packages of the first k reads: those of the first read, then those
      of the k - 1 after it. */
  lemma PackagesOfReads<R>(rounds: seq<R>, read: R -> seq<byte>, n: nat, k: nat)
    requires n > 0 && 0 < k <= |rounds|
    ensures AllPackages(Reads(rounds[..k], read), n)
            == Packages(read(rounds[0]), n) + AllPackages(Reads(rounds[1..][..k - 1], read), n)
  {
    assert Reads(rounds[..k], read)[1..] == Reads(rounds[1..][..k - 1], read);
  }

  /** How many polls the loop makes while taking every read in full. */
  function PollCount(chunks: seq<seq<byte>>, n: nat): nat
    requires n > 0
  {
    if |chunks| == 0 then 0 else 1 + |Packages(chunks[0], n)| + PollCount(chunks[1..], n)
  }

  /** The packages processed when the flag is first seen set on poll stopAt:
      poll 0 heads the first read, the next polls precede its packages, the
      one after heads the second read, and so on. */
  function Scheduled(chunks: seq<seq<byte>>, n: nat, stopAt: nat): seq<seq<byte>>
    requires n > 0
  {
    if |chunks| == 0 || stopAt == 0 then []
    else
      var pkgs := Packages(chunks[0], n);
      if stopAt - 1 <= |pkgs| then pkgs[..stopAt - 1]
      else pkgs + Scheduled(chunks[1..], n, stopAt - 1 - |pkgs|)
  }

  predicate IsPrefix<T(==)>(a: seq<T>, b: seq<T>)
  {
    |a| <= |b| && a == b[..|a|]
  }

  /** The loop processes packages in arrival order and skips none: what it
      processes is a prefix of everything read. */
  lemma {:induction false} ScheduledIsPrefix(chunks: seq<seq<byte>>, n: nat, stopAt: nat)
    requires n > 0
    ensures IsPrefix(Scheduled(chunks, n, stopAt), AllPackages(chunks, n))
  {
    if |chunks| > 0 && stopAt > 0 {
      var pkgs := Packages(chunks[0], n);
      if stopAt - 1 > |pkgs| {
        ScheduledIsPrefix(chunks[1..], n, stopAt - 1 - |pkgs|);
      }
    }
  }

  /** A flag set later never lets fewer packages through. */
  lemma {:induction false} ScheduledIsMonotone(chunks: seq<seq<byte>>, n: nat, stopAt: nat, stopAt': nat)
    requires n > 0 && stopAt <= stopAt'
    ensures IsPrefix(Scheduled(chunks, n, stopAt), Scheduled(chunks, n, stopAt'))
  {
    if |chunks| > 0 && stopAt > 0 {
      var pkgs := Packages(chunks[0], n);
      if stopAt - 1 > |pkgs| {
        ScheduledIsMonotone(chunks[1..], n, stopAt - 1 - |pkgs|, stopAt' - 1 - |pkgs|);
      } else if stopAt' - 1 > |pkgs| {
        var rest := Scheduled(chunks[1..], n, stopAt' - 1 - |pkgs|);
        assert Scheduled(chunks, n, stopAt')[..|pkgs|] == pkgs;
      }
    }
  }

  /** A flag set only after the last read is complete lets every package through. */
  lemma {:induction false} ScheduledLateStopTakesAll(chunks: seq<seq<byte>>, n: nat, stopAt: nat)
    requires n > 0 && stopAt >= PollCount(chunks, n)
    ensures Scheduled(chunks, n, stopAt) == AllPackages(chunks, n)
  {
    if |chunks| > 0 {
      var pkgs := Packages(chunks[0], n);
      if stopAt - 1 > |pkgs| {
        ScheduledLateStopTakesAll(chunks[1..], n, stopAt - 1 - |pkgs|);
      } else {
        assert PollCount(chunks[1..], n) == 0;
      }
    }
  }

  /** The schedule, read by read: with stopAt - 1 polls left after the head of
      read r, the loop takes at most that many of its packages, then goes on
      to the later reads with the polls that remain. */
  lemma ScheduledSplitsAtRead(chunks: seq<seq<byte>>, n: nat, r: nat, stopAt: nat)
    requires n > 0 && r < |chunks| && stopAt > 0
    ensures var pkgs := Packages(chunks[r], n);
            var k := Min(|pkgs|, stopAt - 1);
            Scheduled(chunks[r..], n, stopAt) == pkgs[..k] + Scheduled(chunks[r + 1..], n, stopAt - 1 - k)
  {
    assert chunks[r..][0] == chunks[r] && chunks[r..][1..] == chunks[r + 1..];
    var pkgs := Packages(chunks[r], n);
    if stopAt - 1 > |pkgs| {
      assert pkgs[..|pkgs|] == pkgs;
    }
  }

  /** A flag already set when the loop starts lets nothing through. */
  lemma ScheduledEarlyStopTakesNone(chunks: seq<seq<byte>>, n: nat)
    requires n > 0
    ensures Scheduled(chunks, n, 0) == []
  {
  }

  // ---------------------------------------------------------------------
  // The loop itself, for any way of handling one package.

  /** The state after some packages: still going, or ended by an exception. */
  datatype Outcome<S, F> = Done(state: S) | Crashed(fault: F, state: S)

  /** The items handled in order with step, up to the first exception. */
  function Fold<S, F, X>(step: (S, X) -> Outcome<S, F>, st: S, xs: seq<X>): Outcome<S, F>
    decreases |xs|
  {
    if |xs| == 0 then Done(st)
    else match step(st, xs[0])
      case Crashed(f, s) => Crashed(f, s)
      case Done(s) => Fold(step, s, xs[1..])
  }

  /** Handling two runs of items back to back. */
  lemma {:induction false} FoldAppend<S, F, X>(step: (S, X) -> Outcome<S, F>, st: S, a: seq<X>, b: seq<X>)
    ensures Fold(step, st, a + b) ==
            match Fold(step, st, a)
            case Done(s) => Fold(step, s, b)
            case Crashed(f, s) => Crashed(f, s)
    decreases |a|
  {
    if |a| > 0 {
      assert (a + b)[0] == a[0] && (a + b)[1..] == a[1..] + b;
      match step(st, a[0])
      case Done(s) => FoldAppend(step, s, a[1..], b);
      case Crashed(_, _) =>
    } else {
      assert a + b == b;
    }
  }

  /** Folding over items mapped through h is folding with h built into the step. */
  lemma {:induction false} FoldOfMapped<S, F, X, Y>(f: (S, X) -> Outcome<S, F>, g: (S, Y) -> Outcome<S, F>,
                                                   h: X -> Y, st: S, xs: seq<X>, ys: seq<Y>)
    requires forall s, x :: f(s, x) == g(s, h(x))
    requires |ys| == |xs| && forall i :: 0 <= i < |xs| ==> ys[i] == h(xs[i])
    ensures Fold(f, st, xs) == Fold(g, st, ys)
    decreases |xs|
  {
    if |xs| > 0 {
      assert f(st, xs[0]) == g(st, ys[0]);
      match f(st, xs[0])
      case Done(s) => FoldOfMapped(f, g, h, s, xs[1..], ys[1..]);
      case Crashed(_, _) =>
    }
  }

  /** What pick chooses from each item, in item order. */
  function Gather<X, Y>(pick: X -> seq<Y>, xs: seq<X>): seq<Y>
  {
    if |xs| == 0 then [] else pick(xs[0]) + Gather(pick, xs[1..])
  }

  lemma {:induction false} GatherAppend<X, Y>(pick: X -> seq<Y>, a: seq<X>, b: seq<X>)
    ensures Gather(pick, a + b) == Gather(pick, a) + Gather(pick, b)
    decreases |a|
  {
    if |a| > 0 {
      assert (a + b)[0] == a[0] && (a + b)[1..] == a[1..] + b;
      GatherAppend(pick, a[1..], b);
    } else {
      assert a + b == b;
    }
  }

  /** What a first run of items added, followed by what the next run adds. */
  lemma GatherContinues<X, Y>(pick: X -> seq<Y>, prior: seq<Y>, s: seq<Y>, a: seq<X>, b: seq<X>)
    requires s == prior + Gather(pick, a)
    ensures s + Gather(pick, b) == prior + Gather(pick, a + b)
  {
    GatherAppend(pick, a, b);
  }

  /** A step that adds to what out observes exactly what pick chooses from
      its item: a run of such steps adds what pick gathers from all the items
      it got through, whether or not it ended in an exception, and one that
      ended without exception got through all of them. */
  lemma {:induction false} FoldGathers<S, F, X, Y>(step: (S, X) -> Outcome<S, F>, out: S -> seq<Y>,
                                                  pick: X -> seq<Y>, st: S, xs: seq<X>)
    requires forall s, x :: step(s, x).Done? ==> out(step(s, x).state) == out(s) + pick(x)
    ensures Fold(step, st, xs).Done? ==> out(Fold(step, st, xs).state) == out(st) + Gather(pick, xs)
    decreases |xs|
  {
    if |xs| > 0 {
      var o := step(st, xs[0]);
      if o.Done? {
        FoldGathers(step, out, pick, o.state, xs[1..]);
      }
    }
  }

  /** A property every step keeps, exception or not, holds after any run. */
  lemma {:induction false} FoldPreserves<S, F, X>(step: (S, X) -> Outcome<S, F>, inv: S -> bool, st: S, xs: seq<X>)
    requires inv(st)
    requires forall s, x :: inv(s) ==> inv(step(s, x).state)
    ensures inv(Fold(step, st, xs).state)
    decreases |xs|
  {
    if |xs| > 0 {
      var o := step(st, xs[0]);
      if o.Done? {
        FoldPreserves(step, inv, o.state, xs[1..]);
      }
    }
  }

  /** The `for pkg in pkgs` loop: with `budget` polls left before the flag is
      seen, it handles the first `min(len(pkgs), budget)` packages, stopping
      early at an exception. */
  method ReadLoop<S, F>(step: (S, seq<byte>) -> Outcome<S, F>, st0: S, pkgs: seq<seq<byte>>, budget: nat)
    returns (out: Outcome<S, F>)
    ensures out == Fold(step, st0, pkgs[..Min(|pkgs|, budget)])
  {
    var k := Min(|pkgs|, budget);
    var st := st0;
    var j := 0;
    assert pkgs[..k][0..] == pkgs[..k];
    while j < |pkgs|
      invariant 0 <= j <= k
      invariant Fold(step, st0, pkgs[..k]) == Fold(step, st, pkgs[..k][j..])
    {
      if j >= budget {
        break;
      }
      assert pkgs[..k][j..][0] == pkgs[j] && pkgs[..k][j..][1..] == pkgs[..k][j + 1..];
      var o := step(st, pkgs[j]);
      if o.Crashed? {
        return o;
      }
      st := o.state;
      j := j + 1;
    }
    return Done(st);
  }

  /** The whole reading loop: poll, read, split, and handle the packages one by
      one, polling before each. It handles exactly the packages the schedule
      lets through, up to the first exception. */
  method PollingLoop<S, F>(step: (S, seq<byte>) -> Outcome<S, F>, st0: S, chunks: seq<seq<byte>>,
                           n: nat, stopAt: nat)
    returns (out: Outcome<S, F>)
    requires n > 0
    ensures out == Fold(step, st0, Scheduled(chunks, n, stopAt))
  {
    var st := st0;
    var polls := 0;
    var r := 0;
    ghost var todo := Scheduled(chunks, n, stopAt);
    assert chunks[0..] == chunks;
    while r < |chunks|
      invariant 0 <= r <= |chunks| && polls <= stopAt
      invariant todo == Scheduled(chunks[r..], n, stopAt - polls)
      invariant Fold(step, st0, Scheduled(chunks, n, stopAt)) == Fold(step, st, todo)
    {
      if polls >= stopAt {
        break;
      }
      polls := polls + 1;
      var pkgs := Packages(chunks[r], n);
      var k := Min(|pkgs|, stopAt - polls);
      ScheduledSplitsAtRead(chunks, n, r, stopAt - polls + 1);
      ghost var later := Scheduled(chunks[r + 1..], n, stopAt - polls - k);
      FoldAppend(step, st, pkgs[..k], later);
      var o := ReadLoop(step, st, pkgs, stopAt - polls);
      if o.Crashed? {
        return o;
      }
      st := o.state;
      polls := polls + k;
      todo := later;
      r := r + 1;
    }
    return Done(st);
  }
}

=== FILE: pyrepr.dfy ===
/**
 Python's `str(b)` for a bytes value b, with its first two characters (the
 `b` prefix and the opening quote) dropped: the reporter renders the payload
 field of a frame as `str(data)[2:]`.

 The rendering follows CPython's bytes repr: the quote is `"` when the bytes
 contain a single quote and no double quote, `'` otherwise; the quote and
 the backslash are escaped with a backslash; tab, newline and carriage return
 become `\t`, `\n`, `\r`; every other byte below 0x20 or from 0x7f up becomes
 `\xhh` with lower-case hex digits; the remaining bytes stand for themselves.
 The closing quote is kept.
 */
module PyRepr {
  import opened Bytes
  import opened Text

  const SingleQuote: byte := 39
  const DoubleQuote: byte := 34
  const Backslash: byte := 92

  /** The quote CPython picks for the repr of b. */
  function QuoteFor(b: seq<byte>): (q: byte)
    ensures q == SingleQuote || q == DoubleQuote
    ensures q == DoubleQuote <==> SingleQuote in b && DoubleQuote !in b
  {
    if SingleQuote in b && DoubleQuote !in b then DoubleQuote else SingleQuote
  }

  function HexDigit(d: nat): (c: char)
    requires d < 16
    ensures IsPrintableAscii(c)
  {
    "0123456789abcdef"[d]
  }

  /** The repr text of one byte inside a repr quoted with q. */
  function EscapeByte(x: byte, q: byte): (r: string)
    requires q == SingleQuote || q == DoubleQuote
    ensures 1 <= |r| <= 4 && AllPrintableAscii(r)
    ensures |r| == 1 <==> 32 <= x < 127 && x != q && x != Backslash
  {
    if x == q || x == Backslash then ['\\', x as char]
    else if x == 9 then "\\t"
    else if x == 10 then "\\n"
    else if x == 13 then "\\r"
    else if x < 32 || x >= 127 then ['\\', 'x', HexDigit(x / 16), HexDigit(x % 16)]
    else [x as char]
  }

  function EscapeAll(b: seq<byte>, q: byte): string
    requires q == SingleQuote || q == DoubleQuote
  {
    if |b| == 0 then [] else EscapeByte(b[0], q) + EscapeAll(b[1..], q)
  }

  /** `str(b)[2:]`: the escaped bytes followed by the closing quote. */
  function Render(b: seq<byte>): string
  {
    EscapeAll(b, QuoteFor(b)) + [QuoteFor(b) as char]
  }

  /** Every byte takes at least one printable character. */
  lemma {:induction false} EscapeAllIsPrintable(b: seq<byte>, q: byte)
    requires q == SingleQuote || q == DoubleQuote
    ensures |EscapeAll(b, q)| >= |b| && AllPrintableAscii(EscapeAll(b, q))
  {
    if |b| > 0 {
      EscapeAllIsPrintable(b[1..], q);
    }
  }

  /** The rendering is printable ASCII, at least one character per byte plus
      the closing quote. */
  lemma RenderIsPrintable(b: seq<byte>)
    ensures var r := Render(b);
            && |r| >= |b| + 1 && AllPrintableAscii(r)
            && r[|r| - 1] == QuoteFor(b) as char
  {
    EscapeAllIsPrintable(b, QuoteFor(b));
  }

  /** A byte that renders as the character with the same code in a repr quoted with `'`. */
  predicate IsPlainByte(x: byte)
  {
    32 <= x < 127 && x != SingleQuote && x != Backslash
  }

  /** The characters with the codes of the bytes. */
  function AsText(b: seq<byte>): (s: string)
    ensures |s| == |b| && forall k :: 0 <= k < |b| ==> s[k] as int == b[k]
  {
    seq(|b|, k requires 0 <= k < |b| => b[k] as char)
  }

  lemma {:induction false} EscapeAllOfPlain(b: seq<byte>)
    requires forall k :: 0 <= k < |b| ==> IsPlainByte(b[k])
    ensures EscapeAll(b, SingleQuote) == AsText(b)
  {
    if |b| > 0 {
      EscapeAllOfPlain(b[1..]);
      assert AsText(b) == [b[0] as char] + AsText(b[1..]);
    }
  }

  /** Bytes of plain printable text render as the text itself followed by the quote. */
  lemma RenderOfPlain(b: seq<byte>)
    requires forall k :: 0 <= k < |b| ==> IsPlainByte(b[k])
    ensures Render(b) == AsText(b) + "'"
  {
    assert SingleQuote !in b;
    EscapeAllOfPlain(b);
  }
}

=== FILE: rt_channel.dfy ===
/**
 `CommunicationChannel.run` of rt_reporter/communication_channel.py: the
 oldest rt_reporter loop, which publishes every event string to a fanout
 exchange and logs it.

 At the head of every pass the loop leaves when the stop flag is set or,
 with a non-zero timeout, when the seconds since the start have reached it;
 otherwise it reads from the pipe and handles every package of the read,
 with no stop check between packages. An event string is the record followed
 by a newline; what is logged is that string with trailing newlines and
 carriage returns removed. Publishing is modelled as appending to the
 sequence of what was sent.
 */
module RtChannel {
  import opened Basics
  import opened Bytes
  import opened Text
  import opened Frames
  import opened Polling
  import opened Csv
  import opened RtEvents

  /** The characters `rstrip('\n\r')` removes. */
  const LineBreaks: set<char> := {'\n', '\r'}

  /** One published event: the body sent to the exchange and the text logged for it. */
  datatype Sent = Sent(body: string, logged: string)

  /** `event`: the record followed by a newline. */
  function EventString(l: Line): string
  {
    LineText(l) + "\n"
  }

  /** What the channel publishes for a record, and what it logs: `event.rstrip('\n\r')`. */
  function Publication(l: Line): Sent
  {
    var e := EventString(l);
    Sent(e, RStrip(e, LineBreaks))
  }

  /** One package: `struct.error` when it does not unpack, nothing for the end
      of the report, otherwise one publication. */
  function Step(sent: seq<Sent>, pkg: seq<byte>): Outcome<seq<Sent>, Crash>
  {
    match Decode(pkg)
    case None => Crashed(StructError, sent)
    case Some(ev) => Done(sent + SentForEvent(ev))
  }

  /** The publications of a package, on their own. */
  function SentFor(pkg: seq<byte>): seq<Sent>
  {
    match Decode(pkg)
    case None => []
    case Some(ev) => SentForEvent(ev)
  }

  /** The publications of an unpacked event: none for the end of the report,
      otherwise one. */
  function SentForEvent(ev: Event): seq<Sent>
  {
    match Classify(ev)
    case None => []
    case Some(l) => [Publication(l)]
  }

  /** The log line is the published string without its final newline. */
  predicate LogsWhatItSends(s: Sent)
  {
    |s.body| > 0 && s.body[|s.body| - 1] == '\n' && s.logged == s.body[..|s.body| - 1]
  }

  predicate AllLogWhatTheySend(sent: seq<Sent>)
  {
    forall i :: 0 <= i < |sent| ==> LogsWhatItSends(sent[i])
  }

  /** `rstrip('\n\r')` takes off the newline and stops there, because the
      record itself does not end in a line break. */
  lemma LoggedFormOfRecord(l: Line)
    requires |l.text| > 0 && l.text[|l.text| - 1] !in LineBreaks
    ensures LogsWhatItSends(Publication(l))
    ensures Publication(l).logged == LineText(l)
  {
    var t := LineText(l);
    var e := t + "\n";
    assert e[..|e| - 1] == t;
    assert t[|t| - 1] == l.text[|l.text| - 1];
    assert RStrip(t, LineBreaks) == t;
  }

  /** An event whose payload holds no line break is logged as it is
      published, without the newline. */
  lemma ClassifiedLogsWhatItSends(ev: Event)
    requires '\n' !in ev.payload && '\r' !in ev.payload && Classify(ev).Some?
    ensures LogsWhatItSends(Publication(Classify(ev).value))
  {
    var l := Classify(ev).value;
    var kind := if 0 <= ev.ordinal <= 3 then KindName(ev.ordinal) else "invalid";
    assert l.text == kind + "," + ev.payload;
    if |ev.payload| > 0 {
      assert l.text[|l.text| - 1] == ev.payload[|ev.payload| - 1];
    }
    LoggedFormOfRecord(l);
  }

  /** Every publication of a package logs exactly its body without the
      newline: the payload text never holds a line break. */
  lemma PublicationsLogWhatTheySend(pkg: seq<byte>)
    ensures AllLogWhatTheySend(SentFor(pkg))
  {
    match Decode(pkg)
    case None =>
      assert SentFor(pkg) == [];
    case Some(ev) =>
      DecodedPayloadHasNoLineBreak(pkg);
      EventPublicationsLog(ev);
      assert SentFor(pkg) == SentForEvent(ev);
  }

  /** The publications of an event without line breaks log their bodies
      without the newline. */
  lemma EventPublicationsLog(ev: Event)
    requires '\n' !in ev.payload && '\r' !in ev.payload
    ensures AllLogWhatTheySend(SentForEvent(ev))
  {
    if Classify(ev).Some? {
      ClassifiedLogsWhatItSends(ev);
      assert SentForEvent(ev) == [Publication(Classify(ev).value)];
    } else {
      assert SentForEvent(ev) == [];
    }
  }

  // ---------------------------------------------------------------------
  // The loop.

  /** One pass as the loop observes it: the stop flag and the seconds since
      the start at its head, then the bytes the read returns. */
  datatype Round = Round(stopSet: bool, elapsed: real, chunk: seq<byte>)

  /** The exit test at the head of a pass; a timeout of 0 means none. */
  predicate Exits(timeout: int, stopSet: bool, elapsed: real)
  {
    stopSet || (timeout != 0 && elapsed >= timeout as real)
  }

  /** Where a run is once the observed passes are used up: it left the loop,
      it is still reading, or a package ended the thread. */
  datatype End = Exited(sent: seq<Sent>) | Reading(sent: seq<Sent>) | Died(sent: seq<Sent>)

  /** The loop over the observed passes. */
  function Run(timeout: int, rounds: seq<Round>, sent: seq<Sent>): End
    decreases |rounds|
  {
    if |rounds| == 0 then Reading(sent)
    else if Exits(timeout, rounds[0].stopSet, rounds[0].elapsed) then Exited(sent)
    else
      match Fold(Step, sent, Packages(rounds[0].chunk, RtConf.maxPkgSize))
      case Crashed(_, s) => Died(s)
      case Done(s) => Run(timeout, rounds[1..], s)
  }

  /** The first pass whose head test exits, or the number of passes if none does. */
  function ExitIndex(timeout: int, rounds: seq<Round>): (k: nat)
    ensures k <= |rounds|
    ensures forall i :: 0 <= i < k ==> !Exits(timeout, rounds[i].stopSet, rounds[i].elapsed)
    ensures k < |rounds| ==> Exits(timeout, rounds[k].stopSet, rounds[k].elapsed)
    decreases |rounds|
  {
    if |rounds| == 0 || Exits(timeout, rounds[0].stopSet, rounds[0].elapsed) then 0
    else 1 + ExitIndex(timeout, rounds[1..])
  }

  /** The bytes a pass reads. */
  function ChunkOf(r: Round): seq<byte>
  {
    r.chunk
  }

  /** A timeout of 0 never ends the loop; only the stop flag does. */
  lemma ZeroTimeoutNeverExpires(stopSet: bool, elapsed: real)
    ensures Exits(0, stopSet, elapsed) <==> stopSet
  {
  }

  /** A package that unpacks adds its publications, and nothing else. */
  lemma StepsGatherPublications()
    ensures forall s, x :: Step(s, x).Done? ==> Step(s, x).state == s + SentFor(x)
  {
  }

  /** Only events that are not the end of the report are published, in the
      order of their packages, and only from the reads made before the pass
      whose head test exits. */
  lemma {:induction false} RunPublishesInOrder(timeout: int, rounds: seq<Round>, sent: seq<Sent>)
    ensures var r := Run(timeout, rounds, sent);
            var k := ExitIndex(timeout, rounds);
            !r.Died? ==> r.sent == sent + Gather(SentFor, AllPackages(Reads(rounds[..k], ChunkOf), RtConf.maxPkgSize))
    decreases |rounds|
  {
    if |rounds| > 0 && !Exits(timeout, rounds[0].stopSet, rounds[0].elapsed) {
      var pkgs := Packages(rounds[0].chunk, RtConf.maxPkgSize);
      StepsGatherPublications();
      FoldGathers(Step, s => s, SentFor, sent, pkgs);
      match Fold(Step, sent, pkgs)
      case Crashed(_, _) =>
      case Done(s) =>
        RunPublishesInOrder(timeout, rounds[1..], s);
        var k := ExitIndex(timeout, rounds);
        PackagesOfReads(rounds, ChunkOf, RtConf.maxPkgSize, k);
        GatherContinues(SentFor, sent, s, pkgs, AllPackages(Reads(rounds[1..][..k - 1], ChunkOf), RtConf.maxPkgSize));
    } else {
      assert rounds[..0] == [];
    }
  }

  /** A run that has not died has left the loop exactly when the head test of
      one of its passes said so. */
  lemma {:induction false} RunExitsWhenTold(timeout: int, rounds: seq<Round>, sent: seq<Sent>)
    ensures var r := Run(timeout, rounds, sent);
            !r.Died? ==> (r.Exited? <==> ExitIndex(timeout, rounds) < |rounds|)
    decreases |rounds|
  {
    if |rounds| > 0 && !Exits(timeout, rounds[0].stopSet, rounds[0].elapsed) {
      var pkgs := Packages(rounds[0].chunk, RtConf.maxPkgSize);
      match Fold(Step, sent, pkgs)
      case Crashed(_, _) =>
      case Done(s) => RunExitsWhenTold(timeout, rounds[1..], s);
    }
  }

  /** Whatever happens, every string logged is the string published without
      its newline. */
  lemma {:induction false} RunLogsWhatItSends(timeout: int, rounds: seq<Round>, sent: seq<Sent>)
    requires AllLogWhatTheySend(sent)
    ensures AllLogWhatTheySend(Run(timeout, rounds, sent).sent)
    decreases |rounds|
  {
    if |rounds| > 0 && !Exits(timeout, rounds[0].stopSet, rounds[0].elapsed) {
      var pkgs := Packages(rounds[0].chunk, RtConf.maxPkgSize);
      forall s, x | AllLogWhatTheySend(s)
        ensures AllLogWhatTheySend(Step(s, x).state)
      {
        PublicationsLogWhatTheySend(x);
        assert Step(s, x).state == s + SentFor(x) || Step(s, x).state == s;
      }
      FoldPreserves(Step, AllLogWhatTheySend, sent, pkgs);
      match Fold(Step, sent, pkgs)
      case Crashed(_, _) =>
      case Done(s) => RunLogsWhatItSends(timeout, rounds[1..], s);
    }
  }
}

=== FILE: rt_control.dfy ===
/**
 The acquisition loop of rt_reporter/reporter.py (`Reporter.run`) and of
 rt_reporter/rt_reporter_sh.py (`main`), which share one control scheme.

 Two signal handlers drive it: SIGINT sets the `stop` flag and SIGTSTP
 toggles the `pause` flag. At the head of every pass the loop turns a set
 `stop` flag into its local `stop`; if `pause` is set it sleeps until
 `pause` is cleared or `stop` is set, and turns a `stop` set by then into its
 local `stop` too. It then checks the timeout, and only after that reads
 from the pipe and handles every package of the read: the read of the pass
 that decides to leave is still handled. The loop leaves once the local
 `stop` or the timeout holds, and the final log line names the reason with
 the timeout first, then SIGINT, then "unknown".

 The signals that arrive in a pass are given as those before the head test
 and those from the head test to the end of the pass, the latter grouped by
 the one-second sleep of the pause loop in which they arrive: the loop tests
 the flags before its first sleep and after each, so signals that cancel out
 within one sleep go unseen. The seconds since the start are what the
 timeout test of the pass observes. Decoding,
 publishing and the codec are outside this model: whether a record goes
 through is a parameter.
 */
module RtControl {
  import opened Basics
  import opened Bytes
  import opened Frames
  import opened Polling
  import opened Csv
  import RtEvents

  // ---------------------------------------------------------------------
  // The signal handlers.

  datatype Signal = Sigint | Sigtstp

  /** `signal_flags`: the two flags the handlers set. */
  datatype Flags = Flags(stop: bool, pause: bool)

  /** The flags as the program starts. */
  const Cleared := Flags(false, false)

  /** One handler run: SIGINT sets `stop`, SIGTSTP toggles `pause`; neither
      touches the other flag. */
  function Deliver(f: Flags, s: Signal): (g: Flags)
    ensures s == Sigint ==> g.stop && g.pause == f.pause
    ensures s == Sigtstp ==> g.stop == f.stop && g.pause == !f.pause
  {
    match s
    case Sigint => f.(stop := true)
    case Sigtstp => f.(pause := !f.pause)
  }

  /** Signals handled in order of arrival. */
  function DeliverAll(f: Flags, sigs: seq<Signal>): Flags
    decreases |sigs|
  {
    if |sigs| == 0 then f else DeliverAll(Deliver(f, sigs[0]), sigs[1..])
  }

  /** The number of SIGTSTP signals among sigs. */
  function Toggles(sigs: seq<Signal>): nat
  {
    multiset(sigs)[Sigtstp]
  }

  /** A second SIGTSTP undoes the first. */
  lemma SigtstpTwiceIsIdentity(f: Flags)
    ensures Deliver(Deliver(f, Sigtstp), Sigtstp) == f
  {
  }

  /** After any signals, `stop` is set exactly when it was already set or a
      SIGINT came, and `pause` has flipped once per SIGTSTP. */
  lemma {:induction false} DeliverAllFlags(f: Flags, sigs: seq<Signal>)
    ensures DeliverAll(f, sigs).stop <==> f.stop || Sigint in sigs
    ensures DeliverAll(f, sigs).pause <==> (f.pause <==> Toggles(sigs) % 2 == 0)
    decreases |sigs|
  {
    if |sigs| > 0 {
      DeliverAllFlags(Deliver(f, sigs[0]), sigs[1..]);
      assert sigs == [sigs[0]] + sigs[1..];
      assert multiset(sigs) == multiset([sigs[0]]) + multiset(sigs[1..]);
    }
  }

  /** Handling two groups of signals one after the other. */
  lemma {:induction false} DeliverAllAppend(f: Flags, a: seq<Signal>, b: seq<Signal>)
    ensures DeliverAll(f, a + b) == DeliverAll(DeliverAll(f, a), b)
    decreases |a|
  {
    if |a| > 0 {
      assert (a + b)[0] == a[0] && (a + b)[1..] == a[1..] + b;
      DeliverAllAppend(Deliver(f, a[0]), a[1..], b);
    } else {
      assert a + b == b;
    }
  }

  // ---------------------------------------------------------------------
  // The head of a pass.

  /** The pause loop `while pause and not stop` ends when this holds. */
  predicate Resumes(f: Flags)
  {
    !f.pause || f.stop
  }

  /** The signals of successive seconds, in order of arrival. */
  function Arrivals(secs: seq<seq<Signal>>): seq<Signal>
    decreases |secs|
  {
    if |secs| == 0 then [] else secs[0] + Arrivals(secs[1..])
  }

  /** The flags the pause loop tests after j sleeps of one second, the
      signals of second i being secs[i]: the loop sees the flags only at
      its tests, never in between. */
  function Tested(f: Flags, secs: seq<seq<Signal>>, j: nat): Flags
    requires j <= |secs|
    decreases j
  {
    if j == 0 then f else Tested(DeliverAll(f, secs[0]), secs[1..], j - 1)
  }

  /** The flags tested after j sleeps are those left by every signal of the
      first j seconds. */
  lemma {:induction false} TestedIsArrivals(f: Flags, secs: seq<seq<Signal>>, j: nat)
    requires j <= |secs|
    ensures Tested(f, secs, j) == DeliverAll(f, Arrivals(secs[..j]))
    decreases j
  {
    if j > 0 {
      TestedIsArrivals(DeliverAll(f, secs[0]), secs[1..], j - 1);
      assert secs[..j][1..] == secs[1..][..j - 1];
      DeliverAllAppend(f, secs[0], Arrivals(secs[1..][..j - 1]));
    } else {
      assert secs[..j] == [];
    }
  }

  /** How many one-second sleeps the pause loop makes before its test lets
      it go, or None when it is still sleeping after all of them. */
  function WaitFor(f: Flags, secs: seq<seq<Signal>>): (r: Option<nat>)
    ensures r.Some? ==> r.value <= |secs| && Resumes(Tested(f, secs, r.value))
    ensures r.Some? ==> forall j :: 0 <= j < r.value ==> !Resumes(Tested(f, secs, j))
    ensures r.None? ==> forall j :: 0 <= j <= |secs| ==> !Resumes(Tested(f, secs, j))
    decreases |secs|
  {
    if Resumes(f) then Some(0)
    else if |secs| == 0 then None
    else
      var w := WaitFor(DeliverAll(f, secs[0]), secs[1..]);
      if w.None? then w else Some(w.value + 1)
  }

  /** One pass as the loop observes it: the signals before its head test;
      the signals from there to the end of the pass, grouped by the second of
      the pause's sleep in which they arrive; the seconds since the start at
      its timeout test; and the bytes its read returns. When the pass does
      not pause, or once its pause has ended, the grouping does not matter. */
  datatype Round = Round(before: seq<Signal>, during: seq<seq<Signal>>, elapsed: real, chunk: seq<byte>)

  /** Every signal of a pass, in order of arrival. */
  function Signals(r: Round): seq<Signal>
  {
    r.before + Arrivals(r.during)
  }

  /** The outcome of a head test: the local `stop`, and the flags at the end
      of the pass. */
  datatype Head = Head(stop: bool, flags: Flags)

  /** The head test of a pass entered with flags f, or None when the pause
      has not ended by the last test observed. After the wait the loop reads
      `stop` once more; the model takes that read at the instant of the
      test that ended the wait. */
  function HeadOf(f: Flags, r: Round): (h: Option<Head>)
    ensures h.Some? ==> h.value.flags == DeliverAll(f, Signals(r))
    ensures f.stop || Sigint in r.before ==> h.Some? && h.value.stop
    ensures h.Some? && h.value.stop ==> f.stop || Sigint in Signals(r)
    ensures h.None? ==> !f.stop && Sigint !in Signals(r)
  {
    var f1 := DeliverAll(f, r.before);
    var all := Arrivals(r.during);
    DeliverAllAppend(f, r.before, all);
    DeliverAllFlags(f, r.before);
    DeliverAllFlags(f1, all);
    if !f1.pause then Some(Head(f1.stop, DeliverAll(f1, all)))
    else PausedHead(f1, r.during)
  }

  /** The head test of a pass that finds the pause flag set on flags f: the
      wait, then the local `stop` read once it ends. */
  function PausedHead(f: Flags, secs: seq<seq<Signal>>): (h: Option<Head>)
    ensures h.Some? ==> h.value.flags == DeliverAll(f, Arrivals(secs))
    ensures f.stop ==> h.Some? && h.value.stop
    ensures h.Some? && h.value.stop ==> f.stop || Sigint in Arrivals(secs)
    ensures h.None? ==> !f.stop && Sigint !in Arrivals(secs)
  {
    var all := Arrivals(secs);
    DeliverAllFlags(f, all);
    match WaitFor(f, secs)
    case None =>
      TestedIsArrivals(f, secs, |secs|);
      assert secs[..|secs|] == secs;
      None
    case Some(k) =>
      var g := Tested(f, secs, k);
      TestedIsArrivals(f, secs, k);
      TestedIsArrivals(f, secs, |secs|);
      ArrivalsOfPrefix(secs, k);
      DeliverAllFlags(f, Arrivals(secs[..k]));
      Some(Head(f.stop || g.stop, DeliverAll(f, all)))
  }

  /** The signals of the first k seconds come first among all of them. */
  lemma {:induction false} ArrivalsOfPrefix(secs: seq<seq<Signal>>, k: nat)
    requires k <= |secs|
    ensures Sigint in Arrivals(secs[..k]) ==> Sigint in Arrivals(secs)
    ensures Arrivals(secs) == Arrivals(secs[..k]) + Arrivals(secs[k..])
    decreases k
  {
    if k > 0 {
      ArrivalsOfPrefix(secs[1..], k - 1);
      assert secs[..k][1..] == secs[1..][..k - 1];
      assert secs[k..] == secs[1..][k - 1..];
    } else {
      assert secs[..k] == [] && secs[k..] == secs;
    }
  }

  /** Two SIGTSTPs within one second of a pause are never seen: the pause
      loop tests the flags only between its sleeps, so it sleeps on and the
      pass makes no read. */
  lemma TogglePairWithinOneSleepIsMissed(elapsed: real, chunk: seq<byte>)
    ensures HeadOf(Flags(false, true), Round([], [[Sigtstp, Sigtstp]], elapsed, chunk)).None?
  {
    var secs := [[Sigtstp, Sigtstp]];
    assert DeliverAll(Flags(false, true), secs[0]) == Flags(false, true);
    assert Tested(Flags(false, true), secs, 1) == Flags(false, true);
  }

  /** A SIGINT that follows the resuming SIGTSTP within the same second is
      seen by the test that ends the wait, so the pass stops. */
  lemma SigintWithResumeStops(elapsed: real, chunk: seq<byte>)
    ensures HeadOf(Flags(false, true), Round([], [[Sigtstp, Sigint]], elapsed, chunk))
            == Some(Head(true, Flags(true, false)))
  {
    var secs := [[Sigtstp, Sigint]];
    assert DeliverAll(Flags(false, true), secs[0]) == Flags(true, false);
    assert Tested(Flags(false, true), secs, 1) == Flags(true, false);
    assert Arrivals(secs) == [Sigtstp, Sigint];
  }

  // ---------------------------------------------------------------------
  // Packages.

  /** What happens to a record once it is classified: it goes through, or
      `from_csv` raises `EventCSVError`, `to_dict` raises `EventTypeError`, or
      the publication raises `RabbitMQError`. */
  datatype Delivery = Delivered | Unparsable | Untyped | Unpublished

  /** Why the loop ends by an exception: `struct.error` on a package that does
      not unpack, or a record that did not go through. */
  datatype Failure = BadPackage | Refused(delivery: Delivery)

  /** The records published so far and `number_of_events`. */
  datatype Acquired = Acquired(published: seq<Line>, count: nat)

  /** One package. */
  function Step(deliver: Line -> Delivery, a: Acquired, pkg: seq<byte>): Outcome<Acquired, Failure>
  {
    match RtEvents.Decode(pkg)
    case None => Crashed(BadPackage, a)
    case Some(ev) => StepEvent(deliver, a, ev)
  }

  /** One unpacked event: classify it and hand its record, if any, over. */
  function StepEvent(deliver: Line -> Delivery, a: Acquired, ev: Event): Outcome<Acquired, Failure>
  {
    match RtEvents.Classify(ev)
    case None => Done(a)
    case Some(l) =>
      if deliver(l) == Delivered then Done(Acquired(a.published + [l], a.count + 1))
      else Crashed(Refused(deliver(l)), a)
  }

  function Stepper(deliver: Line -> Delivery): (Acquired, seq<byte>) -> Outcome<Acquired, Failure>
  {
    (a, pkg) => Step(deliver, a, pkg)
  }

  /** `number_of_events` is the number of records published. */
  predicate Counted(a: Acquired)
  {
    a.count == |a.published|
  }

  /** A package that goes through publishes its record, if any, and counts it;
      any package keeps the count right. */
  lemma StepsPublishRecords(deliver: Line -> Delivery)
    ensures forall a, x :: Stepper(deliver)(a, x).Done? ==>
              Stepper(deliver)(a, x).state.published == a.published + RtEvents.RecordsOf(x)
    ensures forall a, x :: Counted(a) ==> Counted(Stepper(deliver)(a, x).state)
  {
    forall a, x
      ensures Stepper(deliver)(a, x).Done? ==>
                Stepper(deliver)(a, x).state.published == a.published + RtEvents.RecordsOf(x)
      ensures Counted(a) ==> Counted(Stepper(deliver)(a, x).state)
    {
      assert Stepper(deliver)(a, x) == Step(deliver, a, x);
      StepPublishesRecords(deliver, a, x);
    }
  }

  /** One package: the record it publishes, if it goes through, and the count. */
  lemma StepPublishesRecords(deliver: Line -> Delivery, a: Acquired, x: seq<byte>)
    ensures Step(deliver, a, x).Done? ==> Step(deliver, a, x).state.published == a.published + RtEvents.RecordsOf(x)
    ensures Counted(a) ==> Counted(Step(deliver, a, x).state)
  {
    match RtEvents.Decode(x)
    case None =>
      assert Step(deliver, a, x) == Crashed(BadPackage, a);
    case Some(ev) =>
      assert Step(deliver, a, x) == StepEvent(deliver, a, ev);
      assert RtEvents.RecordsOf(x) == RtEvents.RecordOf(ev);
      EventPublishesRecord(deliver, a, ev);
  }

  /** One unpacked event: the record it publishes, if it goes through, and the count. */
  lemma EventPublishesRecord(deliver: Line -> Delivery, a: Acquired, ev: Event)
    ensures StepEvent(deliver, a, ev).Done? ==> StepEvent(deliver, a, ev).state.published == a.published + RtEvents.RecordOf(ev)
    ensures Counted(a) ==> Counted(StepEvent(deliver, a, ev).state)
  {
  }

  // ---------------------------------------------------------------------
  // The loop.

  /** The timeout test; a timeout of 0 means none. */
  predicate TimesOut(timeout: int, elapsed: real)
  {
    timeout != 0 && elapsed >= timeout as real
  }

  /** A pass after which the loop leaves. */
  predicate Ends(timeout: int, h: Head, r: Round)
  {
    h.stop || TimesOut(timeout, r.elapsed)
  }

  /** The reason the final log line gives. */
  datatype Reason = Completed | Stopped | Unknown

  /** The timeout takes precedence over SIGINT, and "unknown" is left for
      neither. */
  function ReasonOf(timedOut: bool, stopped: bool): (r: Reason)
    ensures r == Completed <==> timedOut
    ensures r == Stopped <==> !timedOut && stopped
    ensures r == Unknown <==> !timedOut && !stopped
  {
    if timedOut then Completed else if stopped then Stopped else Unknown
  }

  /** Where an acquisition is once the observed passes are used up: it left
      the loop, it is still looping, it is asleep in a pause, or a package
      raised. */
  datatype Acquisition =
    | Finished(acquired: Acquired, reason: Reason)
    | Acquiring(acquired: Acquired, flags: Flags)
    | Paused(acquired: Acquired)
    | Failed(acquired: Acquired, failure: Failure)

  /** The loop over the observed passes, from flags f and what was acquired so far. */
  function Run(timeout: int, deliver: Line -> Delivery, rounds: seq<Round>, f: Flags, a: Acquired): Acquisition
    decreases |rounds|
  {
    if |rounds| == 0 then Acquiring(a, f)
    else
      match HeadOf(f, rounds[0])
      case None => Paused(a)
      case Some(h) =>
        match Fold(Stepper(deliver), a, Packages(rounds[0].chunk, RtConf.maxPkgSize))
        case Crashed(e, a') => Failed(a', e)
        case Done(a') =>
          if Ends(timeout, h, rounds[0]) then Finished(a', ReasonOf(TimesOut(timeout, rounds[0].elapsed), h.stop))
          else Run(timeout, deliver, rounds[1..], h.flags, a')
  }

  /** The head tests of the passes whose reads are made: every pass up to the
      first that ends the loop, or up to one whose pause does not end. */
  function Heads(timeout: int, rounds: seq<Round>, f: Flags): (hs: seq<Head>)
    ensures |hs| <= |rounds|
    ensures forall i :: 0 <= i < |hs| - 1 ==> !Ends(timeout, hs[i], rounds[i])
    decreases |rounds|
  {
    if |rounds| == 0 then []
    else
      match HeadOf(f, rounds[0])
      case None => []
      case Some(h) =>
        if Ends(timeout, h, rounds[0]) then [h]
        else [h] + Heads(timeout, rounds[1..], h.flags)
  }

  /** The bytes a pass reads. */
  function ChunkOf(r: Round): seq<byte>
  {
    r.chunk
  }

  /** The records of every read the loop makes from cleared flags. */
  function PublishedBy(timeout: int, rounds: seq<Round>): seq<Line>
  {
    var n := |Heads(timeout, rounds, Cleared)|;
    Gather(RtEvents.RecordsOf, AllPackages(Reads(rounds[..n], ChunkOf), RtConf.maxPkgSize))
  }

  /** Unless a package raised, what was published is the records of every
      read made, in order, the read of the pass that decided to leave
      included. */
  lemma {:induction false} RunPublishesInOrder(timeout: int, deliver: Line -> Delivery, rounds: seq<Round>,
                                               f: Flags, a: Acquired)
    ensures var r := Run(timeout, deliver, rounds, f, a);
            var n := |Heads(timeout, rounds, f)|;
            !r.Failed? ==>
              r.acquired.published == a.published + Gather(RtEvents.RecordsOf, AllPackages(Reads(rounds[..n], ChunkOf), RtConf.maxPkgSize))
    decreases |rounds|
  {
    if |rounds| > 0 && HeadOf(f, rounds[0]).Some? {
      var h := HeadOf(f, rounds[0]).value;
      var pkgs := Packages(rounds[0].chunk, RtConf.maxPkgSize);
      StepsPublishRecords(deliver);
      FoldGathers(Stepper(deliver), (a: Acquired) => a.published, RtEvents.RecordsOf, a, pkgs);
      match Fold(Stepper(deliver), a, pkgs)
      case Crashed(_, _) =>
      case Done(a') =>
        var n := |Heads(timeout, rounds, f)|;
        PackagesOfReads(rounds, ChunkOf, RtConf.maxPkgSize, n);
        if Ends(timeout, h, rounds[0]) {
          assert rounds[1..][..0] == [];
          GatherContinues(RtEvents.RecordsOf, a.published, a'.published, pkgs, []);
          assert pkgs + [] == pkgs;
        } else {
          RunPublishesInOrder(timeout, deliver, rounds[1..], h.flags, a');
          GatherContinues(RtEvents.RecordsOf, a.published, a'.published, pkgs,
                          AllPackages(Reads(rounds[1..][..n - 1], ChunkOf), RtConf.maxPkgSize));
        }
    } else {
      assert rounds[..0] == [];
    }
  }

  /** `number_of_events` always counts exactly the records published. */
  lemma {:induction false} RunCountsEvents(timeout: int, deliver: Line -> Delivery, rounds: seq<Round>,
                                           f: Flags, a: Acquired)
    requires Counted(a)
    ensures Counted(Run(timeout, deliver, rounds, f, a).acquired)
    decreases |rounds|
  {
    if |rounds| > 0 && HeadOf(f, rounds[0]).Some? {
      var pkgs := Packages(rounds[0].chunk, RtConf.maxPkgSize);
      StepsPublishRecords(deliver);
      FoldPreserves(Stepper(deliver), Counted, a, pkgs);
      match Fold(Stepper(deliver), a, pkgs)
      case Crashed(_, _) =>
      case Done(a') => RunCountsEvents(timeout, deliver, rounds[1..], HeadOf(f, rounds[0]).value.flags, a');
    }
  }

  /** A finished loop left after the last pass it read, because that pass
      ended it, and it names the reason of that pass, which is never
      "unknown". */
  lemma {:induction false} RunFinishesOnLastHead(timeout: int, deliver: Line -> Delivery, rounds: seq<Round>,
                                                 f: Flags, a: Acquired)
    ensures var r := Run(timeout, deliver, rounds, f, a);
            var hs := Heads(timeout, rounds, f);
            r.Finished? ==>
              && 0 < |hs|
              && Ends(timeout, hs[|hs| - 1], rounds[|hs| - 1])
              && r.reason == ReasonOf(TimesOut(timeout, rounds[|hs| - 1].elapsed), hs[|hs| - 1].stop)
              && r.reason != Unknown
    decreases |rounds|
  {
    if |rounds| > 0 && HeadOf(f, rounds[0]).Some? {
      var h := HeadOf(f, rounds[0]).value;
      match Fold(Stepper(deliver), a, Packages(rounds[0].chunk, RtConf.maxPkgSize))
      case Crashed(e, a') =>
      case Done(a') =>
        if Ends(timeout, h, rounds[0]) {
          assert Heads(timeout, rounds, f) == [h];
        } else {
          RunContinues(timeout, deliver, rounds, f, a, h, a');
          var tail := Heads(timeout, rounds[1..], h.flags);
          var hs := Heads(timeout, rounds, f);
          var r := Run(timeout, deliver, rounds[1..], h.flags, a');
          RunFinishesOnLastHead(timeout, deliver, rounds[1..], h.flags, a');
          if r.Finished? {
            assert hs[|hs| - 1] == tail[|tail| - 1];
            assert rounds[|hs| - 1] == rounds[1..][|tail| - 1];
          }
        }
    }
  }

  /** A pass that reads every package and does not end the loop hands its
      flags and what it acquired to the next pass. */
  lemma RunContinues(timeout: int, deliver: Line -> Delivery, rounds: seq<Round>, f: Flags, a: Acquired,
                     h: Head, a': Acquired)
    requires |rounds| > 0 && HeadOf(f, rounds[0]) == Some(h)
    requires Fold(Stepper(deliver), a, Packages(rounds[0].chunk, RtConf.maxPkgSize)) == Done(a')
    requires !Ends(timeout, h, rounds[0])
    ensures Run(timeout, deliver, rounds, f, a) == Run(timeout, deliver, rounds[1..], h.flags, a')
    ensures Heads(timeout, rounds, f) == [h] + Heads(timeout, rounds[1..], h.flags)
  {
  }

  /** The loop reports "STOPPED, SIGINT received" only when a SIGINT did
      arrive. */
  lemma {:induction false} StoppedOnlyAfterSigint(timeout: int, deliver: Line -> Delivery, rounds: seq<Round>,
                                                  f: Flags, a: Acquired)
    ensures var r := Run(timeout, deliver, rounds, f, a);
            r.Finished? && r.reason == Stopped ==>
              f.stop || exists i :: 0 <= i < |rounds| && Sigint in Signals(rounds[i])
    decreases |rounds|
  {
    if |rounds| > 0 && HeadOf(f, rounds[0]).Some? {
      var h := HeadOf(f, rounds[0]).value;
      match Fold(Stepper(deliver), a, Packages(rounds[0].chunk, RtConf.maxPkgSize))
      case Crashed(_, _) =>
      case Done(a') =>
        if !Ends(timeout, h, rounds[0]) {
          StoppedOnlyAfterSigint(timeout, deliver, rounds[1..], h.flags, a');
          DeliverAllFlags(f, Signals(rounds[0]));
          var r := Run(timeout, deliver, rounds, f, a);
          if r.Finished? && r.reason == Stopped && !f.stop && h.flags.stop {
            assert Sigint in Signals(rounds[0]);
          }
          if r.Finished? && r.reason == Stopped && !h.flags.stop {
            var i :| 0 <= i < |rounds[1..]| && Sigint in Signals(rounds[1..][i]);
            assert rounds[1..][i] == rounds[i + 1];
          }
        }
    }
  }

  /** Without a timeout only SIGINT ends the loop. */
  lemma ZeroTimeoutOnlyStops(deliver: Line -> Delivery, rounds: seq<Round>, f: Flags, a: Acquired)
    ensures var r := Run(0, deliver, rounds, f, a);
            r.Finished? ==> r.reason == Stopped
  {
    RunFinishesOnLastHead(0, deliver, rounds, f, a);
  }

  // ---------------------------------------------------------------------
  // reporter.py: the thread around the loop.

  /** The exceptions that end the reporter thread. */
  datatype ThreadError = StructError | ReporterError

  /** How the reporter thread ends: with the final log line, by an
      exception, or not yet. */
  datatype ThreadEnd = Logged(events: nat, reason: Reason) | Raised(error: ThreadError) | Running

  /** `Reporter.run` with the flags cleared: a record that does not go
      through and a poison pill that is not sent both raise `ReporterError`. */
  function ReporterThread(timeout: int, deliver: Line -> Delivery, pillSent: bool, rounds: seq<Round>): (t: ThreadEnd)
  {
    match Run(timeout, deliver, rounds, Cleared, Acquired([], 0))
    case Finished(acquired, reason) =>
      if pillSent then Logged(acquired.count, reason) else Raised(ReporterError)
    case Acquiring(_, _) => Running
    case Paused(_) => Running
    case Failed(_, BadPackage) => Raised(StructError)
    case Failed(_, Refused(_)) => Raised(ReporterError)
  }

  /** The final log line counts every record of every read made and gives a
      known reason. */
  lemma ReporterLogsEveryRecord(timeout: int, deliver: Line -> Delivery, pillSent: bool, rounds: seq<Round>)
    ensures var t := ReporterThread(timeout, deliver, pillSent, rounds);
            t.Logged? ==>
              && t.events == |PublishedBy(timeout, rounds)|
              && t.reason != Unknown
  {
    var a := Acquired([], 0);
    RunPublishesInOrder(timeout, deliver, rounds, Cleared, a);
    RunCountsEvents(timeout, deliver, rounds, Cleared, a);
    RunFinishesOnLastHead(timeout, deliver, rounds, Cleared, a);
  }
}

=== FILE: rt_events.dfy ===
/**
 The single-stream classifier of the rt_reporter generation, shared by
 rt_reporter/communication_channel.py, rt_reporter/reporter.py and
 rt_reporter/rt_reporter_sh.py.

 Packages are `QI1012s` frames of 1024 bytes with unsigned fields, and the
 rendered payload is cut to 1010 characters before it is stripped. Ordinals
 0 to 3 give the record `ts,<kind>,payload`, ordinal 4 marks the end of the
 report and gives nothing, and every other ordinal, 5 included, gives
 `ts,invalid,payload`. There are no named streams in this generation.
 */
module RtEvents {
  import opened Basics
  import opened Bytes
  import opened Frames
  import opened Csv
  import Demux

  /** The payload text is cut to this many characters before it is stripped. */
  const PayloadCut: nat := 1010

  /** The one exception the rt loops raise themselves: `struct.error`. */
  datatype Crash = StructError

  /** `struct.unpack("QI1012s", pkg)`, keeping the payload text cut to 1010
      characters and stripped. */
  function Decode(pkg: seq<byte>): (r: Option<Event>)
    ensures r.Some? <==> |pkg| == 1024
    ensures r.Some? ==> 0 <= r.value.timestamp && 0 <= r.value.ordinal
  {
    DecodeEvent(UnsignedFormat, PayloadCut, pkg)
  }

  /** The payload text of a package never holds a line break. */
  lemma DecodedPayloadHasNoLineBreak(pkg: seq<byte>)
    requires Decode(pkg).Some?
    ensures '\n' !in Decode(pkg).value.payload && '\r' !in Decode(pkg).value.payload
  {
    PayloadTextShape(pkg[PayloadOffset..], PayloadCut);
  }

  /** The match on the type ordinal: the record to publish, or nothing for the
      end of the report. */
  function Classify(ev: Event): (r: Option<Line>)
    ensures r.None? <==> ev.ordinal == 4
    ensures r.Some? ==> r.value.timestamp == ev.timestamp
  {
    if 0 <= ev.ordinal <= 3 then Some(CsvLine(ev.timestamp, KindName(ev.ordinal), ev.payload))
    else if ev.ordinal == 4 then None
    else Some(CsvLine(ev.timestamp, "invalid", ev.payload))
  }

  /** The record a package yields, if it unpacks and is not the end of the report. */
  function RecordsOf(pkg: seq<byte>): seq<Line>
  {
    match Decode(pkg)
    case None => []
    case Some(ev) => RecordOf(ev)
  }

  /** The record an unpacked event yields, if it is not the end of the report. */
  function RecordOf(ev: Event): seq<Line>
  {
    match Classify(ev)
    case None => []
    case Some(l) => [l]
  }

  /** Against the src demultiplexer: ordinals 0 to 3 and those beyond 5 give
      the very line the demultiplexer writes to "main"; ordinal 5, which the
      demultiplexer routes to a named log, is `invalid` here; ordinal 4, which
      opens a log there, ends the report here. */
  lemma ClassifyAgainstDemux(ev: Event)
    ensures ev.ordinal != 4 && ev.ordinal != 5 ==>
              Demux.Classify(ev) == Demux.Append(Demux.MainStream, Classify(ev).value)
    ensures ev.ordinal == 5 ==> Classify(ev) == Some(CsvLine(ev.timestamp, "invalid", ev.payload))
    ensures ev.ordinal == 4 ==> Demux.Classify(ev) == Demux.Open(ev.payload) && Classify(ev).None?
  {
  }
}

=== FILE: rt_shell.dfy ===
/**
 `main` of rt_reporter/rt_reporter_sh.py around the acquisition loop: the
 choice of log level and log destination, the checks on the SUT binary and
 on the RabbitMQ configuration file, the normalised timeout, and the exit
 codes (-1 for an input file, -2 for the RabbitMQ server, -3 for the event
 codec, 0 after the final log line).

 The command line is taken as already parsed by argparse. The file checks
 (`is_valid_file_with_extension`, `is_valid_file_with_extension_nex`,
 `os.path.isfile`, `os.access`) are given as their answers.
 */
module RtShell {
  import opened Basics
  import opened Csv
  import opened RtControl

  /** `LoggingLevel`. */
  datatype LogLevel = Debug | Info | Warning | Error | Critical

  /** The `--log_level` spelling of each level. */
  function LevelName(l: LogLevel): string
  {
    match l
    case Debug => "debug"
    case Info => "info"
    case Warning => "warnings"
    case Error => "errors"
    case Critical => "critical"
  }

  /** The match on `--log_level`: an unknown name gives INFO. */
  function LevelOf(name: string): (l: LogLevel)
    ensures name != "debug" && name != "warnings" && name != "errors" && name != "critical" ==> l == Info
  {
    match name
    case "debug" => Debug
    case "info" => Info
    case "warnings" => Warning
    case "errors" => Error
    case "critical" => Critical
    case _ => Info
  }

  /** Every level is chosen by its own name, and by no other. */
  lemma LevelNamesRoundTrip(l: LogLevel, name: string)
    ensures LevelOf(LevelName(l)) == l
    ensures l != Info ==> (LevelOf(name) == l <==> name == LevelName(l))
  {
  }

  /** `LoggingDestination`. */
  datatype Destination = Console | File

  /** The log goes to the file exactly when one is given and it checks out. */
  function DestinationOf(logFile: Option<string>, logFileValid: bool): (d: Destination)
    ensures d == File <==> logFile.Some? && logFileValid
  {
    if logFile.None? then Console
    else if !logFileValid then Console
    else File
  }

  /** `config.timeout`: a negative timeout is taken as none. */
  function NormaliseTimeout(t: int): (n: nat)
    ensures t >= 0 ==> n == t
    ensures t < 0 ==> forall e: real :: !TimesOut(n, e)
  {
    if t >= 0 then t else 0
  }

  /** The parsed command line. */
  datatype Args = Args(sut: string, configFile: string, logLevel: string, logFile: Option<string>, timeout: int)

  /** The answers of the file checks on the command line's paths. */
  datatype Checks = Checks(logFileValid: bool, sutNamed: bool, sutIsFile: bool, sutExecutable: bool,
                           configValid: bool)

  /** The SUT is a named file the user may execute. */
  predicate SutValid(c: Checks)
  {
    c.sutNamed && c.sutIsFile && c.sutExecutable
  }

  /** How the program ends: with an exit code, after the final log line with
      exit code 0, by an exception it does not catch (`struct.error`), or not
      yet. */
  datatype Termination = Exited(code: int) | Reported(events: nat, reason: Reason) | Uncaught | StillRunning

  /** The exit code for a record that did not go through. */
  function RefusalCode(d: Delivery): (code: int)
    ensures d == Unpublished ==> code == -2
    ensures d == Unparsable || d == Untyped ==> code == -3
  {
    match d
    case Unpublished => -2
    case _ => -3
  }

  /** `main`, with the signals, reads and clock readings of the passes in
      rounds, and whether the poison pill is sent. */
  function Main(args: Args, checks: Checks, deliver: Line -> Delivery, pillSent: bool, rounds: seq<Round>): (t: Termination)
    ensures !SutValid(checks) ==> t == Exited(-1)
    ensures SutValid(checks) && !checks.configValid ==> t == Exited(-1)
    ensures t.Exited? && t.code == -1 ==> !SutValid(checks) || !checks.configValid
  {
    if !SutValid(checks) then Exited(-1)
    else if !checks.configValid then Exited(-1)
    else
      match Run(NormaliseTimeout(args.timeout), deliver, rounds, Cleared, Acquired([], 0))
      case Finished(acquired, reason) =>
        if pillSent then Reported(acquired.count, reason) else Exited(-2)
      case Acquiring(_, _) => StillRunning
      case Paused(_) => StillRunning
      case Failed(_, BadPackage) => Uncaught
      case Failed(_, Refused(d)) => Exited(RefusalCode(d))
  }

  /** A negative `--timeout` runs exactly as no timeout. */
  lemma NegativeTimeoutIsNone(args: Args, checks: Checks, deliver: Line -> Delivery, pillSent: bool, rounds: seq<Round>)
    requires args.timeout < 0
    ensures Main(args, checks, deliver, pillSent, rounds) == Main(args.(timeout := 0), checks, deliver, pillSent, rounds)
  {
  }

  /** Exit code 0 comes with a count of every record of every read made and
      a known reason; without a timeout that reason is SIGINT. */
  lemma ReportedRunIsComplete(args: Args, checks: Checks, deliver: Line -> Delivery, pillSent: bool, rounds: seq<Round>)
    ensures var t := Main(args, checks, deliver, pillSent, rounds);
            var timeout := NormaliseTimeout(args.timeout);
            t.Reported? ==>
              && SutValid(checks) && checks.configValid && pillSent
              && t.events == |RtControl.PublishedBy(timeout, rounds)|
              && t.reason != Unknown
              && (timeout == 0 ==> t.reason == Stopped)
  {
    var timeout := NormaliseTimeout(args.timeout);
    var a := Acquired([], 0);
    RunPublishesInOrder(timeout, deliver, rounds, Cleared, a);
    RunCountsEvents(timeout, deliver, rounds, Cleared, a);
    RunFinishesOnLastHead(timeout, deliver, rounds, Cleared, a);
  }
}

=== FILE: text.dfy ===
/**
 The handful of Python string operations the reporter applies to the text
 of a frame: `s[:n]`, `s.strip()`, `s.rstrip(chars)`, `str(i)` for an
 integer, `s.split(sep, 1)` and `s.rsplit(sep, 1)`.
 */
module Text {
  import opened Basics

  /** Python's `str.isspace`: the characters `strip()` removes by default. */
  predicate IsWhitespace(c: char)
  {
    || c == ' ' || c == '\t' || c == '\n' || c == '\r'
    || c == '\U{0B}' || c == '\U{0C}'
    || ('\U{1C}' <= c <= '\U{1F}')
    || c == '\U{85}' || c == '\U{A0}' || c == '\U{1680}'
    || ('\U{2000}' <= c <= '\U{200A}')
    || c == '\U{2028}' || c == '\U{2029}' || c == '\U{202F}' || c == '\U{205F}'
    || c == '\U{3000}'
  }

  /** `s[:n]` for a non-negative n. */
  function Take(s: string, n: nat): (r: string)
    ensures |r| <= n && |r| <= |s|
    ensures r == s[..|r|]
    ensures |s| <= n ==> r == s
    ensures |s| >= n ==> |r| == n
  {
    if |s| <= n then s else s[..n]
  }

  /** Drops the leading whitespace of s. */
  function TrimStart(s: string): (r: string)
    ensures |r| <= |s| && r == s[|s| - |r|..]
    ensures forall k :: 0 <= k < |s| - |r| ==> IsWhitespace(s[k])
    ensures |r| > 0 ==> !IsWhitespace(r[0])
  {
    if |s| > 0 && IsWhitespace(s[0]) then TrimStart(s[1..]) else s
  }

  /** Drops the trailing whitespace of s. */
  function TrimEnd(s: string): (r: string)
    ensures |r| <= |s| && r == s[..|r|]
    ensures forall k :: |r| <= k < |s| ==> IsWhitespace(s[k])
    ensures |r| > 0 ==> !IsWhitespace(r[|r| - 1])
  {
    if |s| > 0 && IsWhitespace(s[|s| - 1]) then TrimEnd(s[..|s| - 1]) else s
  }

  /** Neither end of s is whitespace. */
  predicate IsStripped(s: string)
  {
    |s| > 0 ==> !IsWhitespace(s[0]) && !IsWhitespace(s[|s| - 1])
  }

  /** s[i..j] is what remains of s once whitespace margins are dropped. */
  predicate IsCore(s: string, i: nat, j: nat)
  {
    && i <= j <= |s|
    && IsStripped(s[i..j])
    && (forall k :: 0 <= k < i ==> IsWhitespace(s[k]))
    && (forall k :: j <= k < |s| ==> IsWhitespace(s[k]))
  }

  /** Python's `s.strip()`. */
  function Strip(s: string): (r: string)
    ensures IsStripped(r) && |r| <= |s|
  {
    TrimEnd(TrimStart(s))
  }

  /** The trailing margin of t, seen from the string s = pre + t. */
  lemma TrailingMarginOfSuffix(s: string, i: nat, r: string)
    requires i <= |s| && |r| <= |s| - i
    requires forall k :: |r| <= k < |s| - i ==> IsWhitespace(s[i..][k])
    ensures forall k :: i + |r| <= k < |s| ==> IsWhitespace(s[k])
  {
    forall k | i + |r| <= k < |s|
      ensures IsWhitespace(s[k])
    {
      assert s[k] == s[i..][k - i];
    }
  }

  /** Where Strip(s) starts inside s. */
  function StripStart(s: string): (i: nat)
    ensures i + |Strip(s)| <= |s|
  {
    |s| - |TrimStart(s)|
  }

  /** Strip(s) is what remains of s once its whitespace margins are dropped. */
  lemma StripIsCore(s: string)
    ensures var i := StripStart(s);
            IsCore(s, i, i + |Strip(s)|) && Strip(s) == s[i..i + |Strip(s)|]
  {
    StripIsSlice(s);
    StripMargins(s);
  }

  /** Strip(s) is the slice of s that starts at StripStart(s). */
  lemma StripIsSlice(s: string)
    ensures var i := StripStart(s);
            Strip(s) == s[i..i + |Strip(s)|]
  {
    var t := TrimStart(s);
    var r := TrimEnd(t);
    var i := |s| - |t|;
    assert t == s[i..];
    assert r == t[..|r|];
  }

  /** Everything of s before and after Strip(s) is whitespace. */
  lemma StripMargins(s: string)
    ensures var i := StripStart(s);
            && (forall k :: 0 <= k < i ==> IsWhitespace(s[k]))
            && (forall k :: i + |Strip(s)| <= k < |s| ==> IsWhitespace(s[k]))
  {
    var t := TrimStart(s);
    var r := TrimEnd(t);
    var i := |s| - |t|;
    assert t == s[i..];
    TrailingMarginOfSuffix(s, i, r);
  }

  /** The whitespace margins of a string are unique: any core of s is Strip(s). */
  lemma CoreIsUnique(s: string, i: nat, j: nat, i': nat, j': nat)
    requires IsCore(s, i, j) && IsCore(s, i', j')
    ensures s[i..j] == s[i'..j']
  {
    // a character inside one core is not whitespace, one outside the other is
    assert i < j ==> !IsWhitespace(s[i]) && !IsWhitespace(s[j - 1]);
    assert i' < j' ==> !IsWhitespace(s[i']) && !IsWhitespace(s[j' - 1]);
  }

  /** A string with no whitespace at either end is its own strip. */
  lemma StripOfStripped(s: string)
    requires IsStripped(s)
    ensures Strip(s) == s
  {
    assert TrimStart(s) == s;
  }

  lemma StripIdempotent(s: string)
    ensures Strip(Strip(s)) == Strip(s)
  {
    StripOfStripped(Strip(s));
  }

  /** A string of whitespace trims to nothing. */
  lemma {:induction false} TrimStartOfBlank(pad: string)
    requires forall k :: 0 <= k < |pad| ==> IsWhitespace(pad[k])
    ensures TrimStart(pad) == []
    decreases |pad|
  {
    if |pad| > 0 {
      TrimStartOfBlank(pad[1..]);
    }
  }

  /** Trailing whitespace after a string that does not end in whitespace is
      exactly what TrimEnd drops. */
  lemma {:induction false} TrimEndOfPadded(t: string, pad: string)
    requires |t| == 0 || !IsWhitespace(t[|t| - 1])
    requires forall k :: 0 <= k < |pad| ==> IsWhitespace(pad[k])
    ensures TrimEnd(t + pad) == t
    decreases |pad|
  {
    if |pad| > 0 {
      var p := pad[..|pad| - 1];
      assert (t + pad)[..|t + pad| - 1] == t + p;
      TrimEndOfPadded(t, p);
    } else {
      assert t + pad == t;
    }
  }

  /** Stripping text padded on the right with whitespace gives back the text. */
  lemma StripOfPadded(t: string, pad: string)
    requires IsStripped(t) && forall k :: 0 <= k < |pad| ==> IsWhitespace(pad[k])
    ensures Strip(t + pad) == t
  {
    if |t| == 0 {
      assert t + pad == pad;
      TrimStartOfBlank(pad);
    } else {
      assert TrimStart(t + pad) == t + pad;
      TrimEndOfPadded(t, pad);
    }
  }

  /** A character that prints as itself: the printable ASCII range. */
  predicate IsPrintableAscii(c: char)
  {
    ' ' <= c <= '~'
  }

  predicate AllPrintableAscii(s: string)
  {
    forall k :: 0 <= k < |s| ==> IsPrintableAscii(s[k])
  }

  /** Stripping only removes characters. */
  lemma StripOfPrintable(s: string)
    requires AllPrintableAscii(s)
    ensures AllPrintableAscii(Strip(s))
  {
    var t := TrimStart(s);
    SliceOfPrintable(s, |s| - |t|, |s|);
    SliceOfPrintable(t, 0, |TrimEnd(t)|);
  }

  lemma SliceOfPrintable(s: string, i: nat, j: nat)
    requires AllPrintableAscii(s) && i <= j <= |s|
    ensures AllPrintableAscii(s[i..j])
  {
    assert forall k :: 0 <= k < j - i ==> s[i..j][k] == s[i + k];
  }

  /** Printable text holds no line break. */
  lemma PrintableHasNoLineBreak(s: string)
    requires AllPrintableAscii(s)
    ensures '\n' !in s && '\r' !in s
  {
  }

  /** Python's `s.rstrip(chars)`. */
  function RStrip(s: string, chars: set<char>): (r: string)
    ensures |r| <= |s| && r == s[..|r|]
    ensures forall k :: |r| <= k < |s| ==> s[k] in chars
    ensures |r| > 0 ==> r[|r| - 1] !in chars
  {
    if |s| > 0 && s[|s| - 1] in chars then RStrip(s[..|s| - 1], chars) else s
  }

  // ---------------------------------------------------------------------
  // Decimal numerals: Python's str(i) for an int i, and its inverse.

  predicate IsDigit(c: char)
  {
    '0' <= c <= '9'
  }

  predicate AllDigits(s: string)
  {
    forall k :: 0 <= k < |s| ==> IsDigit(s[k])
  }

  function DigitChar(d: nat): (c: char)
    requires d < 10
    ensures IsDigit(c)
  {
    "0123456789"[d]
  }

  function DigitValue(c: char): (d: nat)
    requires IsDigit(c)
    ensures d < 10
  {
    (c as int) - ('0' as int)
  }

  /** Decimal digits of n, without leading zeros. */
  function NatToString(n: nat): (s: string)
    ensures |s| >= 1 && AllDigits(s)
    ensures |s| > 1 ==> s[0] != '0'
  {
    if n < 10 then [DigitChar(n)] else NatToString(n / 10) + [DigitChar(n % 10)]
  }

  /** Python's `str(i)`: an optional minus sign followed by the digits of |i|. */
  function IntToString(i: int): (s: string)
    ensures |s| >= 1 && ',' !in s
  {
    if i >= 0 then NatToString(i) else "-" + NatToString(-i)
  }

  /** The value of a string of decimal digits. */
  function DigitsValue(s: string): nat
    requires AllDigits(s)
  {
    if |s| == 0 then 0 else 10 * DigitsValue(s[..|s| - 1]) + DigitValue(s[|s| - 1])
  }

  /** The integer a decimal numeral denotes, if it is one. */
  function ParseInt(s: string): (r: Option<int>)
  {
    if |s| > 1 && s[0] == '-' && AllDigits(s[1..]) then Some(-(DigitsValue(s[1..]) as int))
    else if |s| > 0 && AllDigits(s) then Some(DigitsValue(s))
    else None
  }

  lemma {:induction false} DigitsOfNat(n: nat)
    ensures DigitsValue(NatToString(n)) == n
  {
    if n >= 10 {
      var s := NatToString(n);
      assert s[..|s| - 1] == NatToString(n / 10);
      DigitsOfNat(n / 10);
    } else {
      assert DigitValue(DigitChar(n)) == n;
    }
  }

  lemma ParseIntOfIntToString(i: int)
    ensures ParseInt(IntToString(i)) == Some(i)
  {
    if i >= 0 {
      ParseIntOfNatToString(i);
    } else {
      ParseIntOfNegative(-i);
      assert IntToString(i) == "-" + NatToString(-i);
    }
  }

  /** The numeral of a natural number reads back as that number. */
  lemma ParseIntOfNatToString(n: nat)
    ensures ParseInt(NatToString(n)) == Some(n)
  {
    var s := NatToString(n);
    assert IsDigit(s[0]);
    DigitsOfNat(n);
  }

  /** A minus sign before the numeral of a positive number reads back as its
      negation. */
  lemma ParseIntOfNegative(n: nat)
    requires n > 0
    ensures ParseInt("-" + NatToString(n)) == Some(-(n as int))
  {
    var s := "-" + NatToString(n);
    assert s[1..] == NatToString(n);
    assert |s| > 1 && s[0] == '-' && AllDigits(s[1..]);
    DigitsOfNat(n);
  }

  // ---------------------------------------------------------------------
  // Splitting at one separator.

  /** The index of the first occurrence of c in s. */
  function FirstIndex(s: string, c: char): (r: Option<nat>)
    ensures r.None? <==> c !in s
    ensures r.Some? ==> r.value < |s| && s[r.value] == c && c !in s[..r.value]
  {
    if |s| == 0 then None
    else if s[0] == c then Some(0)
    else match FirstIndex(s[1..], c)
      case None => None
      case Some(k) =>
        assert s[..k + 1] == [s[0]] + s[1..][..k];
        Some(k + 1)
  }

  /** The index of the last occurrence of c in s. */
  function LastIndex(s: string, c: char): (r: Option<nat>)
    ensures r.None? <==> c !in s
    ensures r.Some? ==> r.value < |s| && s[r.value] == c && c !in s[r.value + 1..]
  {
    if |s| == 0 then None
    else if s[|s| - 1] == c then Some(|s| - 1)
    else
      var init := s[..|s| - 1];
      match LastIndex(init, c)
      case None => None
      case Some(k) =>
        assert s[k + 1..] == init[k + 1..] + [s[|s| - 1]];
        Some(k)
  }

  /** Python's `s.split(sep, 1)`: one part when sep does not occur, else the
      text before the first sep and the text after it. */
  function SplitFirst(s: string, sep: char): (parts: seq<string>)
    ensures |parts| == 1 <==> sep !in s
    ensures |parts| == 1 || |parts| == 2
    ensures |parts| == 1 ==> parts[0] == s
    ensures |parts| == 2 ==> parts[0] + [sep] + parts[1] == s && sep !in parts[0]
  {
    match FirstIndex(s, sep)
    case None => [s]
    case Some(k) =>
      assert s[..k] + [sep] + s[k + 1..] == s;
      [s[..k], s[k + 1..]]
  }

  /** Python's `s.rsplit(sep, 1)`: one part when sep does not occur, else the
      text before the last sep and the text after it. */
  function SplitLast(s: string, sep: char): (parts: seq<string>)
    ensures |parts| == 1 <==> sep !in s
    ensures |parts| == 1 || |parts| == 2
    ensures |parts| == 1 ==> parts[0] == s
    ensures |parts| == 2 ==> parts[0] + [sep] + parts[1] == s && sep !in parts[1]
  {
    match LastIndex(s, sep)
    case None => [s]
    case Some(k) =>
      assert s[..k] + [sep] + s[k + 1..] == s;
      [s[..k], s[k + 1..]]
  }

  lemma {:induction false} FirstIndexOfJoin(a: string, sep: char, b: string)
    requires sep !in a
    ensures FirstIndex(a + [sep] + b, sep) == Some(|a|)
  {
    if |a| > 0 {
      assert (a + [sep] + b)[1..] == a[1..] + [sep] + b;
      FirstIndexOfJoin(a[1..], sep, b);
    }
  }

  lemma {:induction false} LastIndexOfJoin(a: string, sep: char, b: string)
    requires sep !in b
    ensures LastIndex(a + [sep] + b, sep) == Some(|a|)
  {
    if |b| > 0 {
      var s := a + [sep] + b;
      assert s[..|s| - 1] == a + [sep] + b[..|b| - 1];
      LastIndexOfJoin(a, sep, b[..|b| - 1]);
    }
  }

  /** Splitting `a + [sep] + b` at its first sep gives a and b back when a has no sep. */
  lemma SplitFirstOfJoin(a: string, sep: char, b: string)
    requires sep !in a
    ensures SplitFirst(a + [sep] + b, sep) == [a, b]
  {
    var s := a + [sep] + b;
    FirstIndexOfJoin(a, sep, b);
    assert s[..|a|] == a && s[|a| + 1..] == b;
  }

  /** Splitting `a + [sep] + b` at its last sep gives a and b back when b has no sep. */
  lemma SplitLastOfJoin(a: string, sep: char, b: string)
    requires sep !in b
    ensures SplitLast(a + [sep] + b, sep) == [a, b]
  {
    var s := a + [sep] + b;
    LastIndexOfJoin(a, sep, b);
    assert s[..|a|] == a && s[|a| + 1..] == b;
  }
}
